=== FILE: README.md ===
# bosh-workspace releases and credentials, modelled in Dafny

bosh-workspace keeps BOSH releases as git repositories and names each
release in a deployment by a version. No tags are involved: the version is
found from the manifests under the repository's `releases` directory. A
manifest named `<name>-<version>.yml` defines that version. The commit that
defines it is the one that last touched the manifest's most recently changed
blame hunk. Once a release is chosen, the repository is checked out at that
commit, or at a configured ref. Then every git submodule that a template
symlink points into is checked out at its pinned commit. A separate
credentials file maps git URLs to the user name, password or key used to
fetch them.

The model has one Dafny module per concern:

- `Wrappers`: `Option` and `Result`.
- `RubyText`: the Ruby string operations the code relies on, written out.
  - `String#to_i`, with leading blanks, a sign, the decimal prefix `0d` and `_` between digits.
  - `Integer#to_s`.
  - `start_with?`.
  - `gsub` with a literal pattern.
- `RubyPath`: `File.join`, `File.dirname` and `File.expand_path` on POSIX paths. As in MRI, `File.dirname` treats a run of leading slashes as one root slash (`File.dirname("//a/b")` is "/a").
- `VersionPattern`: the extraction `entry_name[/#{name}-(.+)\.yml/, 1]`.
  - It is unanchored: the leftmost start wins, then the longest (greedy) capture.
  - The capture never crosses a line break.
- `FinalReleases`: from the walk of the releases tree to the sorted list of final releases.
  - For each entry: its latest blame hunk, its version and its record.
  - An in-place insertion sort on an array stands in for `sort!`.
  - The choice by version selector.
- `SubmoduleDetection`: the submodules a release needs.
  - `symlink_target`, `submodule_for` and `symlink_templates`.
  - The list of required submodules.
- `ReleaseDescriptor`: the class `Release`.
  - Its state is the memoised final releases, the HEAD commit and the log of checkout calls made into git.
  - Its methods are the public accessors, `update_repo` and `update_submodule`.
- `CredentialStore`: the class `Credentials`. Its state is the loaded records and the memoised table from URL to attributes.

The git repository and the file system are given to the model as values:

- `ReleaseDescriptor.Repository` holds:
  - for each commit, the blob entries of each directory, each with its blame;
  - the object id of each revision;
  - the submodules.
- `ReleaseDescriptor.Filesystem` holds:
  - the current directory;
  - the directories that are not symlinks;
  - the existing paths;
  - what a walk of the templates directory meets.

Where descriptions of the tool and the code differ, the model follows the
code (`lib/bosh/workspace/release.rb`):

- The blame `reduce` replaces the running hunk only on a strictly later time. On a tie the FIRST latest hunk wins, not the last (`FinalReleases.LatestHunk`).
- `required_submodules` does not deduplicate. A submodule holding two template targets appears twice (`SubmoduleDetection.RequiredKeepsRepeats`).
- A submodule covers a target when `File.join(workdir, path)` is a plain text prefix of the target. So `/w/lib` also covers `/w/library/x`.
- A configured `ref` changes only what `update_repo` checks out. `version`, `manifest` and `url` still go through the blame-based selection.
- A version other than `latest` picks the FIRST record with that exact version string, in sorted order.

## Model

| member | source | states |
|---|---|---|
| RubyText.ToI | lib/bosh/workspace/release.rb:114 | `to_i` skips blanks, reads an optional sign, an optional `0d` prefix and the digit run; the result is negative only when the first non-blank character is `-` |
| RubyText.ToIOfDecimal | lib/bosh/workspace/release.rb:114 | `to_i` of a decimal version, followed by any text that does not continue the number (".yml", ".5", ...), is the number itself; a 0 followed by `d` or `D` is excluded, as that is the decimal prefix |
| RubyText.ToIOfPrefixed | lib/bosh/workspace/release.rb:114 | `to_i` skips the decimal prefix: "0d" followed by the digits of `n` and a tail that does not continue the number reads `n` |
| RubyText.ToIRoundTrip | lib/bosh/workspace/release.rb:9 | `to_i` reads back every integer written by `to_s`, negative ones included |
| RubyText.ReplaceAll | lib/bosh/workspace/release.rb:60 | `gsub` whose replacement is the pattern itself leaves the text unchanged |
| RubyText.ReplaceAllUntouched | lib/bosh/workspace/release.rb:60 | `gsub` leaves a text unchanged when the text never shows the first character of the pattern |
| RubyText.ReplaceAllNoMatch | lib/bosh/workspace/release.rb:60 | `gsub` leaves a text unchanged when the pattern occurs nowhere in it |
| RubyText.ReplaceAllSplice | lib/bosh/workspace/release.rb:60 | `gsub` replaces an occurrence of the pattern after a stretch that cannot start one, then resumes scanning after the occurrence |
| RubyText.ReplaceAllInterleave | lib/bosh/workspace/release.rb:60 | pieces free of the pattern's first character, joined by the pattern, become the same pieces joined by the replacement |
| RubyPath.Join | lib/bosh/workspace/release.rb:11 | no contract of its own: what `File.join` builds is stated by `JoinLayout`, `JoinEndsWith`, `JoinPlain` and `JoinAssoc` |
| RubyPath.JoinLayout | lib/bosh/workspace/release.rb:36 | `File.join(a, b)` is `a` without its trailing slashes, then a run of slashes, then `b`; the run is non-empty unless `b` starts with `/` |
| RubyPath.JoinEndsWith | lib/bosh/workspace/release.rb:128 | a relative piece joined to a directory ends the result, right after a slash, and the result starts with the directory without its trailing slashes |
| RubyPath.JoinPlain | lib/bosh/workspace/release.rb:141 | two pieces with no slash where they meet are joined with exactly one slash |
| RubyPath.JoinAssoc | lib/bosh/workspace/release.rb:76 | `File.join(a, b, c)`, for any `a`, a `b` with no slash at either end and a `c` not starting with a slash, is `a` joined with `b/c` |
| RubyPath.Dirname | lib/bosh/workspace/release.rb:135 | `File.dirname` is never empty, ends without a slash unless it is "/", is rooted iff the path is, and never starts with two slashes |
| RubyPath.DirnameOfComponents | lib/bosh/workspace/release.rb:135 | the directory of a normal absolute path `/c1/.../ck/f` is `/c1/.../ck`, and "/" when there are no `c`s |
| RubyPath.ExpandPath | lib/bosh/workspace/release.rb:135 | `expand_path` yields "/" followed by components that are none of "", ".", ".." and hold no slash |
| RubyPath.ExpandPathOfNormal | lib/bosh/workspace/release.rb:135 | `expand_path` leaves an absolute path already in that form unchanged, whatever the current directory |
| RubyPath.NormalizeIsNormal | lib/bosh/workspace/release.rb:135 | what `expand_path` yields is "/" followed by components that are none of "", ".", ".." and hold no slash |
| RubyPath.NormalizeOfNormal | lib/bosh/workspace/release.rb:135 | `expand_path` leaves a path already in that form unchanged |
| RubyPath.NormalizeIdempotent | lib/bosh/workspace/release.rb:135 | expanding twice is expanding once |
| VersionPattern.LongestBelow | lib/bosh/workspace/release.rb:106 | at a fixed start, the greedy `.+` capture ends at the largest end that still lets `.yml` follow |
| VersionPattern.FirstMatchFrom | lib/bosh/workspace/release.rb:106 | the regex matches at the leftmost possible start, with the greedy capture there; no start before it matches; None only when nothing matches |
| VersionPattern.VersionOf | lib/bosh/workspace/release.rb:106 | a captured version is non-empty and holds no line break |
| VersionPattern.VersionOfMatches | lib/bosh/workspace/release.rb:106 | a version is extracted iff the pattern matches somewhere, and then `<name>-<version>.yml` occurs in the entry name |
| VersionPattern.VersionOfManifestName | lib/bosh/workspace/release.rb:106 | the entry `<name>-<v>.yml` yields exactly `v`, for any `v` without a line break |
| VersionPattern.VersionOfUnanchored | lib/bosh/workspace/release.rb:106 | the pattern is not anchored: for release "bar", the entry "foobar-2.yml" yields version "2" |
| FinalReleases.LatestHunk | lib/bosh/workspace/release.rb:97-103 | the blame `reduce` picks a hunk with the greatest time, and no earlier hunk has that time (ties keep the first) |
| FinalReleases.RecordOf | lib/bosh/workspace/release.rb:95-111 | a symlink or an unmatched name gives no record; otherwise the record carries the extracted version and the commit id and original path of a latest hunk |
| FinalReleases.Records | lib/bosh/workspace/release.rb:94-112 | each pushed record carries a non-empty version on one line, as the capture `(.+)` gives it |
| FinalReleases.RecordsMembership | lib/bosh/workspace/release.rb:94-112 | a record is in the pushed list iff some walked entry contributes it |
| FinalReleases.RecordsLength | lib/bosh/workspace/release.rb:94-112 | at most one record per entry; a walk of symlinks only gives none |
| FinalReleases.InsertLast | lib/bosh/workspace/release.rb:114 | one insertion step: the prefix through `n` becomes sorted by the key, the array stays a permutation, and the rest is unchanged |
| FinalReleases.SortBy | lib/bosh/workspace/release.rb:114 | `sort!` with a comparison of `to_i` keys sorts the array in place by key, as a permutation of what it held |
| FinalReleases.ComputeFinalReleases | lib/bosh/workspace/release.rb:91-116 | `final_releases` is the records of the walk sorted by `to_i` of the version: sorted, and a permutation of the records |
| FinalReleases.FindVersion | lib/bosh/workspace/release.rb:120 | `find` gives the first index whose version string equals the selector, or none when none does |
| FinalReleases.Select | lib/bosh/workspace/release.rb:118-125 | "latest" gives the last record, failing only on an empty list; another selector gives the first record with that exact version string, else "could not find version" for this selector and release name |
| FinalReleases.LatestIsGreatest | lib/bosh/workspace/release.rb:114-119 | "latest" over the final releases gives a record of the walk with the greatest version number, and fails iff the walk has no records |
| FinalReleases.ExactSelection | lib/bosh/workspace/release.rb:120-124 | a selector other than "latest" succeeds iff some record of the walk has that version string, and then yields such a record |
| FinalReleases.TwoManifestRecords | lib/bosh/workspace/release.rb:94-112 | two manifests `<name>-<m>.yml` and `<name>-<n>.yml` give two records, each with its version, path and commit |
| FinalReleases.TwoReleasesExample | lib/bosh/workspace/release.rb:91-125 | with those two manifests and `m < n`, "latest" is version `n` at its commit, however the digits compare as text (so "10" comes after "9"); selector `m` is version `m` at its commit |
| SubmoduleDetection.SymlinkTarget | lib/bosh/workspace/release.rb:131-137 | an absolute link is the target as written; a relative one is expanded from the symlink's directory, so it is absolute and in normal form |
| SubmoduleDetection.RelativeLinkResolves | lib/bosh/workspace/release.rb:135 | for a symlink at a normal path `/d1/.../dk/f`, a relative link of plain components leads to `/d1/.../dk` followed by those components |
| SubmoduleDetection.ParentLinkResolves | lib/bosh/workspace/release.rb:135 | for a symlink at a normal path `/d1/.../dk/f`, a link `../c1/.../cm` leads to `/d1/.../d(k-1)/c1/.../cm` |
| SubmoduleDetection.SubmoduleFor | lib/bosh/workspace/release.rb:139-146 | the loop returns the first submodule, in listed order, whose joined working path is a prefix of the file, and none (Ruby's `false`) when none is |
| SubmoduleDetection.CoveringSubmoduleSound | lib/bosh/workspace/release.rb:139-146 | there is an answer iff some submodule covers the file, and the answer is a listed submodule that covers it |
| SubmoduleDetection.Targets | lib/bosh/workspace/release.rb:151-155 | at most one target per walked entry (that the targets are exactly those of the symlinks is `TargetsMembership`) |
| SubmoduleDetection.TargetsAppend | lib/bosh/workspace/release.rb:151-155 | the targets of a walk split in two are those of each part, in walk order |
| SubmoduleDetection.TargetsMembership | lib/bosh/workspace/release.rb:151-155 | a path is a target iff some symlink met by the walk resolves to it; every target is an absolute path |
| SubmoduleDetection.SymlinkTemplates | lib/bosh/workspace/release.rb:148-158 | nothing when the templates directory does not exist; otherwise the targets of the symlinks, in walk order |
| SubmoduleDetection.Required | lib/bosh/workspace/release.rb:24-33 | never more required submodules than targets |
| SubmoduleDetection.RequiredSubmodules | lib/bosh/workspace/release.rb:24-33 | the loop pushes, for each target in order, the submodule covering it, when there is one |
| SubmoduleDetection.RequiredAppend | lib/bosh/workspace/release.rb:24-33 | the submodules required by two lists of targets are those of the first list followed by those of the second |
| SubmoduleDetection.RequiredMembership | lib/bosh/workspace/release.rb:24-33 | a submodule is required iff it is the first covering submodule of some target; every required submodule is one of the repository's |
| SubmoduleDetection.RequiredKeepsRepeats | lib/bosh/workspace/release.rb:24-33 | two targets inside one submodule make it appear twice: no deduplication |
| ReleaseDescriptor.ScalarText | lib/bosh/workspace/release.rb:9 | `to_s` of the configured version: text unchanged, nil empty, an integer its decimal digits (after a `-` when negative), which `to_i` reads back |
| ReleaseDescriptor.TreeAt | lib/bosh/workspace/release.rb:85-87 | the releases tree is found iff HEAD's commit has that directory, and it is that directory's entries |
| ReleaseDescriptor.ReleasesDirFor | lib/bosh/workspace/release.rb:80-83 | in the old layout `releases_dir` is `releases`, under the configured path when there is one |
| ReleaseDescriptor.ProbeMatchesReleasesDir | lib/bosh/workspace/release.rb:74-83 | in the new layout, with plain names, the directory read is exactly the `releases/<name>` directory whose existence was tested |
| ReleaseDescriptor.ManifestFileFor | lib/bosh/workspace/release.rb:35-37 | `manifest_file` is the repository directory without its trailing slashes, then only slashes (at least one unless the manifest is absolute), then the manifest path |
| ReleaseDescriptor.NameVersionFor | lib/bosh/workspace/release.rb:43-45 | `name_version` is the name, one "/", then the version, and each can be read back |
| ReleaseDescriptor.UrlFor | lib/bosh/workspace/release.rb:60 | substituting the marker by itself changes nothing |
| ReleaseDescriptor.UrlSubstitutes | lib/bosh/workspace/release.rb:59-61 | a URL template made of pieces holding no `^`, joined by `^VERSION^`, becomes the same pieces joined by the version |
| ReleaseDescriptor.UrlWithoutMarker | lib/bosh/workspace/release.rb:59-61 | a URL in which `^VERSION^` occurs nowhere is used as it is, whatever the version |
| ReleaseDescriptor.Release.constructor | lib/bosh/workspace/release.rb:5-13 | the fields are taken from the configuration, the version through `to_s`, and the repository directory is `File.join(releases_dir, name)`; nothing is memoised yet |
| ReleaseDescriptor.Release.Ref | lib/bosh/workspace/release.rb:51-53 | no ref gives nil; a ref gives the object id it resolves to, or fails when git knows no such object |
| ReleaseDescriptor.Release.ReleaseDir | lib/bosh/workspace/release.rb:55-57 | `release_dir` is the repository directory, or the repository directory without its trailing slashes, then only slashes (at least one unless the path is absolute), then the configured path |
| ReleaseDescriptor.Release.NewStyleRepo | lib/bosh/workspace/release.rb:74-78 | no contract of its own: `releases/<name>` (under the configured path) exists as a directory that is not a symlink; `ReleasesDir` states what it decides |
| ReleaseDescriptor.Release.ReleasesDir | lib/bosh/workspace/release.rb:80-83 | `releases` (under the configured path) in the old layout; in the new layout, with plain names, the directory whose existence `new_style_repo` tested |
| ReleaseDescriptor.Release.TemplatesDir | lib/bosh/workspace/release.rb:127-129 | the working directory without its trailing slashes, then only slashes, the last of them followed by `templates` |
| ReleaseDescriptor.Release.LoadFinalReleases | lib/bosh/workspace/release.rb:91-116 | the first successful call computes the final releases from the releases tree at HEAD and memoises them; later calls return the memo unchanged |
| ReleaseDescriptor.Release.Selected | lib/bosh/workspace/release.rb:118-125 | `release` is the selection over the memoised final releases, with its errors |
| ReleaseDescriptor.Release.Version | lib/bosh/workspace/release.rb:47-49 | `version` is the selected record's version, or the selection's error |
| ReleaseDescriptor.Release.Manifest | lib/bosh/workspace/release.rb:39-41 | `manifest` is the selected record's manifest path, or the selection's error |
| ReleaseDescriptor.Release.ManifestFile | lib/bosh/workspace/release.rb:35-37 | `manifest_file` joins the repository directory and the selected manifest |
| ReleaseDescriptor.Release.NameVersion | lib/bosh/workspace/release.rb:43-45 | `name_version` is `<name>/<selected version>` |
| ReleaseDescriptor.Release.Url | lib/bosh/workspace/release.rb:59-61 | without a configured URL: nil, and no release is looked up; with one: the template with the selected version substituted |
| ReleaseDescriptor.Release.CheckoutAt | lib/bosh/workspace/release.rb:69-72 | `checkout_tree`, then `checkout`, both to the same oid on the same working tree; only the primary tree's HEAD moves |
| ReleaseDescriptor.Release.UpdateRepo | lib/bosh/workspace/release.rb:15-18 | a configured ref is checked out, and the version is not selected; otherwise the selected release's commit is checked out; on failure nothing is checked out |
| ReleaseDescriptor.Release.UpdateSubmodule | lib/bosh/workspace/release.rb:20-22 | the submodule's own working tree is checked out at its pinned commit; the release repository's HEAD does not move |
| ReleaseDescriptor.Release.TemplateTargets | lib/bosh/workspace/release.rb:127-129 | the symlink targets under `<workdir>/templates`, or none when that directory does not exist |
| ReleaseDescriptor.Release.RequiredSubmodules | lib/bosh/workspace/release.rb:24-33 | the covering submodule of each template target, in walk order, each one of the repository's submodules |
| CredentialStore.UrlKey | lib/bosh/workspace/credentials.rb:24 | `delete('url')` answers the record's URL, or nil when it has none |
| CredentialStore.AttributesOfKeys | lib/bosh/workspace/credentials.rb:24-25 | a record contributes every key but `url`, as a symbol, with its value |
| CredentialStore.HashOfDomain | lib/bosh/workspace/credentials.rb:23-26 | `Hash[pairs]` has a key iff some pair has it |
| CredentialStore.HashOfLastWins | lib/bosh/workspace/credentials.rb:23-26 | `Hash[pairs]` keeps the value of the last pair with a key |
| CredentialStore.CredentialMap | lib/bosh/workspace/credentials.rb:23-26 | no contract of its own: its domain, last-wins and other-records properties are `CredentialMapDomain`, `CredentialMapLastWins` and `CredentialMapIgnoresOthers` |
| CredentialStore.CredentialMapDomain | lib/bosh/workspace/credentials.rb:21-28 | a URL is in the table iff some record names it |
| CredentialStore.CredentialMapLastWins | lib/bosh/workspace/credentials.rb:21-28 | the attributes of a URL come from the last record naming it |
| CredentialStore.CredentialMapIgnoresOthers | lib/bosh/workspace/credentials.rb:21-28 | a record for another URL, or for none, does not change what a URL maps to |
| CredentialStore.TakeKeys | lib/bosh/workspace/credentials.rb:23-26 | the loop strips the URL from every record and builds the same table as `Hash[...]` over the records |
| CredentialStore.Credentials.constructor | lib/bosh/workspace/credentials.rb:5-7 | the loaded records are kept and no table is built yet |
| CredentialStore.Credentials.Table | lib/bosh/workspace/credentials.rb:21-28 | the first call strips the URLs from the records and memoises the table; later calls return the memo and leave the records alone |
| CredentialStore.Credentials.FindByUrl | lib/bosh/workspace/credentials.rb:15-17 | the attributes of the last loaded record naming `url`, and nil iff no record names it |

## Left out

- Git is not modelled: Rugged repository access, lookups, blame and checkouts. The repository is a value (`Repository`) and a checkout is a logged call (`CheckoutCall`). The files a checkout writes are not modelled, and neither is `checkout`'s force strategy.
- The file system is a snapshot (`Filesystem`) taken once. It does not change when a checkout writes the working tree.
- `FinalReleases.RecordOf`, `Records` and `ComputeFinalReleases` require every non-symlink entry to have at least one blame hunk (`Blamed`). On an empty blame, Ruby's `reduce` yields nil and line 104 raises; that crash is not modelled.
- The blame of each entry is given with the entry. How the blamed path is built at line 96 is not modelled.
- `walk_blobs` recursing into subdirectories is not modelled. The walk is the flat list of entries of the releases directory.
- `FinalReleases.Select`: "latest" on an empty list is `Err(NoFinalReleases)` (`Err(Selection(NoFinalReleases))` from the accessors). Ruby answers nil there, and the callers then fail on it.
- `@repo ||= Rugged::Repository.new(repo_dir)` is not modelled. Opening the repository is not memoised; the repository is given.
- `git_url` is only stored. It is an attribute reader with no logic.
- The release name is matched literally in the version pattern. Regex metacharacters in a release name, which Ruby would interpret, are not modelled.
- `File.expand_path` covers "/"-rooted and cwd-relative paths only. `~` expansion is not modelled.
- `url`: backslash sequences in the replacement text of `gsub` are not modelled. The version is inserted literally.
- `ReleaseDescriptor.UrlSubstitutes` is proved only for templates whose text between the markers holds no `^`. Section 2 of RFC 3986 does not allow an unencoded `^` in a URI, so a valid URL template meets this. For other templates, `gsub`'s left-to-right scan is stated by `RubyText.ReplaceAllSplice` but is not summed up as one equation.
- `FinalReleases.SortBy` is an insertion sort, so equal keys keep their order. Ruby's `sort!` promises no order for equal keys. So the contract of `ComputeFinalReleases` states only sorted plus permutation.
- `ReleaseDescriptor.Scalar`: a configured version is text, an integer or nil. Floats and other YAML types are not modelled.
- `SubmoduleDetection.SymlinkTarget`: for a relative link, the contract states only that the result is absolute and normal. The exact target is proved for links of plain components (`RelativeLinkResolves`) and for links that climb one level (`ParentLinkResolves`). It is not proved for every link.
- A symlink that cannot be read is not modelled. Each symlink of the walk carries what it points to.
- `Credentials#perform_validation` (schema validation) is not modelled, nor is YAML loading.
  - The credentials are a list of string-to-string records.
  - Non-list files and non-string values are not modelled.
- Ruby's `false` from `submodule_for` and `nil` from lookups are both `None`.

=== FILE: credential_store.dfy ===
/**
  The credentials file: a list of records, each naming the git URL it is for
  and the attributes (user name, password, private key, ...) to use there.
  Lookups go by URL through a table built once from the records.
 */
module CredentialStore {
  import opened Wrappers

  /** A Ruby symbol, as `to_sym` makes from a key. */
  datatype Symbol = Sym(name: string)

  /** One record as YAML loads it: text keys to values. */
  type RawRecord = map<string, string>

  /** The attributes of one URL, keyed by symbols. */
  type Attributes = map<Symbol, string>

  /** The URL of a record: `c.delete('url')` answers nil (None) when it has none. */
  function UrlKey(c: RawRecord): (r: Option<string>)
    ensures r.Some? <==> "url" in c
    ensures r.Some? ==> r.value == c["url"]
  {
    if "url" in c then Some(c["url"]) else None
  }

  /** The record once `delete('url')` has removed its URL. */
  function WithoutUrl(c: RawRecord): RawRecord {
    c - {"url"}
  }

  /** `each_with_object({}) { |(k, v), h| h[k.to_sym] = v }`: the keys turned into symbols, values unchanged. */
  function Symbolize(c: RawRecord): Attributes {
    map k | k in c :: Sym(k) := c[k]
  }

  /** The attributes a record contributes. */
  function AttributesOf(c: RawRecord): Attributes {
    Symbolize(WithoutUrl(c))
  }

  /** A record contributes every key but `url`, as a symbol, with its value. */
  lemma AttributesOfKeys(c: RawRecord)
    ensures Sym("url") !in AttributesOf(c)
    ensures forall k :: k != "url" ==> (Sym(k) in AttributesOf(c) <==> k in c)
    ensures forall k :: k != "url" && k in c ==> AttributesOf(c)[Sym(k)] == c[k]
  {
  }

  /** `Hash[pairs]` of the pairs `[key(x), val(x)]` in order: a later pair replaces an earlier one with the same key. */
  function HashOf<T, K, V>(xs: seq<T>, key: T -> K, val: T -> V): map<K, V> {
    if xs == [] then map[]
    else
      var x := xs[|xs| - 1];
      HashOf(xs[..|xs| - 1], key, val)[key(x) := val(x)]
  }

  lemma HashOfPrefix<T, K, V>(xs: seq<T>, key: T -> K, val: T -> V, i: nat)
    requires i < |xs|
    ensures HashOf(xs[..i + 1], key, val) == HashOf(xs[..i], key, val)[key(xs[i]) := val(xs[i])]
  {
    assert xs[..i + 1][..i] == xs[..i];
  }

  /** A key is present exactly when some element has it. */
  lemma {:induction false} HashOfDomain<T, K, V>(xs: seq<T>, key: T -> K, val: T -> V, k: K)
    ensures k in HashOf(xs, key, val) <==> exists i :: 0 <= i < |xs| && key(xs[i]) == k
    decreases |xs|
  {
    if xs != [] {
      var n := |xs| - 1;
      HashOfDomain(xs[..n], key, val, k);
      assert forall i :: 0 <= i < n ==> xs[..n][i] == xs[i];
    }
  }

  /** The value under a key is that of the last element with the key. */
  lemma {:induction false} HashOfLastWins<T, K, V>(xs: seq<T>, key: T -> K, val: T -> V, i: nat)
    requires i < |xs|
    requires forall j :: i < j < |xs| ==> key(xs[j]) != key(xs[i])
    ensures key(xs[i]) in HashOf(xs, key, val)
    ensures HashOf(xs, key, val)[key(xs[i])] == val(xs[i])
    decreases |xs|
  {
    var n := |xs| - 1;
    if i < n {
      assert xs[..n][i] == xs[i];
      HashOfLastWins(xs[..n], key, val, i);
    }
  }

  /** The table `credentials` builds: URL (or nil) to the attributes of the last record with that URL. */
  function CredentialMap(rs: seq<RawRecord>): map<Option<string>, Attributes> {
    HashOf(rs, UrlKey, AttributesOf)
  }

  /** A URL has credentials exactly when some record names it. */
  lemma CredentialMapDomain(rs: seq<RawRecord>, key: Option<string>)
    ensures key in CredentialMap(rs) <==> exists i :: 0 <= i < |rs| && UrlKey(rs[i]) == key
  {
    HashOfDomain(rs, UrlKey, AttributesOf, key);
  }

  /** The credentials of a URL are those of the last record naming it. */
  lemma CredentialMapLastWins(rs: seq<RawRecord>, i: nat)
    requires i < |rs|
    requires forall j :: i < j < |rs| ==> UrlKey(rs[j]) != UrlKey(rs[i])
    ensures UrlKey(rs[i]) in CredentialMap(rs)
    ensures CredentialMap(rs)[UrlKey(rs[i])] == AttributesOf(rs[i])
  {
    HashOfLastWins(rs, UrlKey, AttributesOf, i);
  }

  /** Records without a URL all land under the nil key; a lookup by URL never sees them. */
  lemma {:induction false} CredentialMapIgnoresOthers(rs: seq<RawRecord>, u: string, extra: RawRecord)
    requires "url" !in extra || extra["url"] != u
    ensures (Some(u) in CredentialMap(rs + [extra])) == (Some(u) in CredentialMap(rs))
    ensures Some(u) in CredentialMap(rs) ==> CredentialMap(rs + [extra])[Some(u)] == CredentialMap(rs)[Some(u)]
  {
    assert (rs + [extra])[..|rs|] == rs;
  }

  /**
    `Hash[xs.map { |x| [x.delete(k), rest(x)] }]` over the records: every
    record loses its key, and the table maps each key to what is left of the
    last record that had it.
   */
  method TakeKeys<T, K, V>(xs: seq<T>, key: T -> K, strip: T -> T, rest: T -> V, val: T -> V) returns (ys: seq<T>, m: map<K, V>)
    requires forall x :: rest(strip(x)) == val(x)
    ensures |ys| == |xs| && forall j :: 0 <= j < |xs| ==> ys[j] == strip(xs[j])
    ensures m == HashOf(xs, key, val)
  {
    ys := xs;
    m := map[];
    var i := 0;
    while i < |ys|
      invariant 0 <= i <= |ys| == |xs|
      invariant m == HashOf(xs[..i], key, val)
      invariant forall j :: 0 <= j < i ==> ys[j] == strip(xs[j])
      invariant forall j :: i <= j < |ys| ==> ys[j] == xs[j]
    {
      var x := ys[i];
      var k := key(x);
      ys := ys[i := strip(x)];
      m := m[k := rest(ys[i])];
      HashOfPrefix(xs, key, val, i);
      i := i + 1;
    }
    assert xs[..i] == xs;
  }

  // ---------------------------------------------------------------------------
  // The credentials object

  class Credentials {
    /** The records as loaded from the file. */
    ghost const loaded: seq<RawRecord>
    /** `@raw_credentials`: the loaded records, whose URLs the table building deletes. */
    var raw: seq<RawRecord>
    /** `@credentials`: the memoised table. */
    var table: Option<map<Option<string>, Attributes>>

    ghost predicate Valid()
      reads this
    {
      && |raw| == |loaded|
      && (table.None? ==> raw == loaded)
      && (table.Some? ==> table.value == CredentialMap(loaded)
                          && forall i :: 0 <= i < |raw| ==> raw[i] == WithoutUrl(loaded[i]))
    }

    constructor (records: seq<RawRecord>)
      ensures loaded == records && raw == records && table.None?
      ensures Valid()
    {
      loaded := records;
      raw := records;
      table := None;
    }

    /**
      `credentials`: on first use, takes the URL out of every record and
      builds the table from URL to attributes; afterwards answers from the memo.
     */
    method Table() returns (t: map<Option<string>, Attributes>)
      requires Valid()
      modifies this
      ensures Valid() && table == Some(t)
      ensures t == CredentialMap(loaded)
      ensures old(table).Some? ==> raw == old(raw)
    {
      if table.Some? {
        return table.value;
      }
      var rs, m := TakeKeys(raw, UrlKey, WithoutUrl, Symbolize, AttributesOf);
      raw := rs;
      table := Some(m);
      t := m;
    }

    /** `find_by_url`: the attributes of the last record naming `url`, or nil. */
    method FindByUrl(url: string) returns (r: Option<Attributes>)
      requires Valid()
      modifies this
      ensures Valid() && table.Some?
      ensures r.Some? <==> Some(url) in CredentialMap(loaded)
      ensures r.Some? ==> r.value == CredentialMap(loaded)[Some(url)]
      ensures r.Some? <==> exists i :: 0 <= i < |loaded| && UrlKey(loaded[i]) == Some(url)
    {
      var t := Table();
      CredentialMapDomain(loaded, Some(url));
      if Some(url) in t {
        r := Some(t[Some(url)]);
      } else {
        r := None;
      }
    }
  }
}

=== FILE: final_releases.dfy ===
/**
  Version resolution: from the blobs of the releases tree, with the blame of
  each, to the list of final releases `{version, manifest, commit}` sorted by
  the integer value of the version, and the choice of one of them.
 */
module FinalReleases {
  import opened Wrappers
  import opened RubyText
  import opened VersionPattern

  /** One hunk of a blame: the commit that last touched it, that commit's signature time, and the file's path in that commit. */
  datatype Hunk = Hunk(finalCommitId: string, time: int, origPath: string)

  /** A blob met while walking the releases tree, with the blame of its path. */
  datatype Entry = Entry(name: string, filemode: int, blame: seq<Hunk>)

  /** One final release. */
  datatype Record = Record(version: string, manifest: string, commit: string)

  datatype SelectError = VersionNotFound(version: string, name: string) | NoFinalReleases

  /** The git file mode of a symbolic link (0o120000). */
  const SymlinkMode: int := 40960

  /** The git file mode of a regular, non-executable file (0o100644). */
  const RegularFileMode: int := 33188

  predicate IsSymlink(e: Entry) {
    e.filemode == SymlinkMode
  }

  /**
    Every entry that is blamed has at least one hunk: on an empty blame the
    `reduce` yields nil and reading its commit id fails.
   */
  predicate Blamed(es: seq<Entry>) {
    forall i :: 0 <= i < |es| ==> IsSymlink(es[i]) || |es[i].blame| > 0
  }

  /** Hunk `k` has the greatest time, and no earlier hunk has that time. */
  predicate IsLatest(hs: seq<Hunk>, k: nat) {
    && k < |hs|
    && (forall j :: 0 <= j < |hs| ==> hs[j].time <= hs[k].time)
    && (forall j :: 0 <= j < k ==> hs[j].time < hs[k].time)
  }

  /** The blame `reduce`: the running hunk is replaced only by a strictly more recent one. */
  function LatestHunk(hs: seq<Hunk>): (k: nat)
    requires hs != []
    ensures IsLatest(hs, k)
  {
    if |hs| == 1 then 0
    else
      var m := LatestHunk(hs[..|hs| - 1]);
      if hs[|hs| - 1].time > hs[m].time then |hs| - 1 else m
  }

  /** The record one entry contributes, if any. */
  function RecordOf(name: string, e: Entry): (r: Option<Record>)
    requires IsSymlink(e) || |e.blame| > 0
    ensures r.Some? <==> !IsSymlink(e) && VersionOf(name, e.name).Some?
    ensures r.Some? ==> r.value.version == VersionOf(name, e.name).value
    ensures r.Some? ==> exists k: nat :: IsLatest(e.blame, k)
                          && r.value.commit == e.blame[k].finalCommitId
                          && r.value.manifest == e.blame[k].origPath
  {
    if IsSymlink(e) then None
    else
      var h := e.blame[LatestHunk(e.blame)];
      match VersionOf(name, e.name)
      case None => None
      case Some(v) => Some(Record(v, h.origPath, h.finalCommitId))
  }

  /**
    The records of the entries, in walk order. Every record carries a
    non-empty version on one line, as the capture `(.+)` gives it.
   */
  function Records(name: string, es: seq<Entry>): (rs: seq<Record>)
    requires Blamed(es)
    ensures forall k :: 0 <= k < |rs| ==> rs[k].version != [] && '\n' !in rs[k].version
  {
    if es == [] then []
    else
      var init := es[..|es| - 1];
      assert Blamed(init) by {
        forall i | 0 <= i < |init| ensures IsSymlink(init[i]) || |init[i].blame| > 0 {
          assert init[i] == es[i];
        }
      }
      match RecordOf(name, es[|es| - 1])
      case None => Records(name, init)
      case Some(r) => Records(name, init) + [r]
  }

  lemma BlamedPrefix(es: seq<Entry>, n: nat)
    requires Blamed(es) && n <= |es|
    ensures Blamed(es[..n])
  {
    forall i | 0 <= i < n ensures IsSymlink(es[..n][i]) || |es[..n][i].blame| > 0 {
      assert es[..n][i] == es[i];
    }
  }

  /** `e` contributes the record `r`. */
  predicate Contributes(name: string, e: Entry, r: Record)
    requires IsSymlink(e) || |e.blame| > 0
  {
    RecordOf(name, e) == Some(r)
  }

  /** A record is produced exactly for the entries that contribute one. */
  lemma {:induction false} RecordsMembership(name: string, es: seq<Entry>, r: Record)
    requires Blamed(es)
    ensures r in Records(name, es) <==> exists i :: 0 <= i < |es| && Contributes(name, es[i], r)
  {
    if es != [] {
      var n := |es| - 1;
      var init := es[..n];
      BlamedPrefix(es, n);
      RecordsMembership(name, init, r);
      var tail := if RecordOf(name, es[n]).Some? then [RecordOf(name, es[n]).value] else [];
      assert Records(name, es) == Records(name, init) + tail;
      if r in Records(name, es) {
        if r in Records(name, init) {
          var i :| 0 <= i < n && Contributes(name, init[i], r);
          assert init[i] == es[i];
        } else {
          assert Contributes(name, es[n], r);
        }
      } else {
        assert r !in tail;
        forall i | 0 <= i < |es| ensures !Contributes(name, es[i], r) {
          if i < n {
            assert init[i] == es[i];
            assert !Contributes(name, init[i], r);
          } else {
            assert RecordOf(name, es[n]) != Some(r);
          }
        }
      }
    }
  }

  /** One record per contributing entry: the list is never longer than the walk. */
  lemma {:induction false} RecordsLength(name: string, es: seq<Entry>)
    requires Blamed(es)
    ensures |Records(name, es)| <= |es|
    ensures (forall i :: 0 <= i < |es| ==> IsSymlink(es[i])) ==> Records(name, es) == []
  {
    if es != [] {
      var init := es[..|es| - 1];
      assert Blamed(init) by {
        forall i | 0 <= i < |init| ensures IsSymlink(init[i]) || |init[i].blame| > 0 {
          assert init[i] == es[i];
        }
      }
      RecordsLength(name, init);
    }
  }

  // ---------------------------------------------------------------------------
  // sort! { |a, b| a[:version].to_i <=> b[:version].to_i }

  /** The sort key of a record: the integer value of its version. */
  function Key(r: Record): int {
    ToI(r.version)
  }

  /** `s` is in non-decreasing order of `key`. */
  predicate SortedBy<T>(s: seq<T>, key: T -> int) {
    forall i, j :: 0 <= i < j < |s| ==> key(s[i]) <= key(s[j])
  }

  predicate SortedByVersion(rs: seq<Record>) {
    SortedBy(rs, Key)
  }

  /** The final releases of a walk: its records, sorted by the integer value of the version. */
  ghost predicate IsFinalReleases(name: string, es: seq<Entry>, rs: seq<Record>)
    requires Blamed(es)
  {
    SortedByVersion(rs) && multiset(rs) == multiset(Records(name, es))
  }

  /** Exchanges two neighbours. */
  method SwapAdjacent<T>(a: array<T>, j: nat)
    requires 0 < j < a.Length
    modifies a
    ensures a[..] == old(a[..])[j - 1 := old(a[j])][j := old(a[j - 1])]
    ensures multiset(a[..]) == old(multiset(a[..]))
  {
    a[j - 1], a[j] := a[j], a[j - 1];
  }

  /** Moves `a[n]` left into the sorted prefix `a[..n]`. */
  method InsertLast<T>(a: array<T>, n: nat, key: T -> int)
    requires n < a.Length
    requires SortedBy(a[..n], key)
    modifies a
    ensures SortedBy(a[..n + 1], key)
    ensures multiset(a[..]) == old(multiset(a[..]))
    ensures a[n + 1..] == old(a[n + 1..])
  {
    var j := n;
    while j > 0 && key(a[j - 1]) > key(a[j])
      invariant 0 <= j <= n
      invariant forall p, q :: 0 <= p < q <= n && p != j && q != j ==> key(a[p]) <= key(a[q])
      invariant forall q :: j < q <= n ==> key(a[j]) < key(a[q])
      invariant multiset(a[..]) == old(multiset(a[..]))
      invariant a[n + 1..] == old(a[n + 1..])
    {
      SwapAdjacent(a, j);
      j := j - 1;
    }
  }

  /** `sort!` with a block comparing `key` values: sorts `a` in place. */
  method SortBy<T>(a: array<T>, key: T -> int)
    modifies a
    ensures SortedBy(a[..], key)
    ensures multiset(a[..]) == old(multiset(a[..]))
  {
    var i := 0;
    while i < a.Length
      invariant 0 <= i <= a.Length
      invariant SortedBy(a[..i], key)
      invariant multiset(a[..]) == old(multiset(a[..]))
    {
      InsertLast(a, i, key);
      i := i + 1;
    }
    assert a[..a.Length] == a[..];
  }

  /**
    `final_releases`: walks the entries, skipping symlinks, pushes a record for
    each name that matches, then sorts the records by version number.
   */
  method ComputeFinalReleases(name: string, es: seq<Entry>) returns (rs: seq<Record>)
    requires Blamed(es)
    ensures IsFinalReleases(name, es, rs)
  {
    var found: seq<Record> := [];
    var i := 0;
    while i < |es|
      invariant 0 <= i <= |es|
      invariant Blamed(es[..i])
      invariant found == Records(name, es[..i])
    {
      assert es[..i + 1][..i] == es[..i];
      var e := es[i];
      if !IsSymlink(e) {
        var h := e.blame[LatestHunk(e.blame)];
        var version := VersionOf(name, e.name);
        if version.Some? {
          found := found + [Record(version.value, h.origPath, h.finalCommitId)];
        }
      }
      i := i + 1;
    }
    assert es[..i] == es;
    var a := new Record[|found|](k requires 0 <= k < |found| => found[k]);
    assert a[..] == found;
    SortBy(a, Key);
    rs := a[..];
  }

  // ---------------------------------------------------------------------------
  // release

  /** `find { |v| v[:version] == version }`, as an index. */
  function FindVersion(rs: seq<Record>, version: string): (r: Option<nat>)
    ensures r.Some? ==> r.value < |rs| && rs[r.value].version == version
    ensures r.Some? ==> forall j :: 0 <= j < r.value ==> rs[j].version != version
    ensures r.None? ==> forall j :: 0 <= j < |rs| ==> rs[j].version != version
  {
    if rs == [] then None
    else if rs[0].version == version then Some(0)
    else match FindVersion(rs[1..], version)
      case None => None
      case Some(k) => Some(k + 1)
  }

  /**
    `release`: "latest" picks the last final release; any other selector the
    first one whose version string equals it.
   */
  function Select(rs: seq<Record>, spec: string, name: string): (r: Result<Record, SelectError>)
    ensures spec == "latest" ==> (r.Ok? <==> rs != [])
    ensures spec == "latest" && r.Ok? ==> r.value == rs[|rs| - 1]
    ensures spec == "latest" && r.Ok? && SortedByVersion(rs) ==> forall j :: 0 <= j < |rs| ==> Key(rs[j]) <= Key(r.value)
    ensures spec != "latest" ==> (r.Ok? <==> exists j :: 0 <= j < |rs| && rs[j].version == spec)
    ensures spec != "latest" && r.Ok? ==>
              exists j :: 0 <= j < |rs| && rs[j] == r.value && r.value.version == spec
                          && forall j' :: 0 <= j' < j ==> rs[j'].version != spec
    ensures r.Err? ==> r.error == if spec == "latest" then NoFinalReleases else VersionNotFound(spec, name)
  {
    if spec == "latest" then
      if rs == [] then Err(NoFinalReleases) else Ok(rs[|rs| - 1])
    else
      match FindVersion(rs, spec)
      case None => Err(VersionNotFound(spec, name))
      case Some(k) => Ok(rs[k])
  }

  /** The last element of a sorted permutation of `t` is an element of `t` with the greatest key. */
  lemma LastIsGreatest<T>(s: seq<T>, t: seq<T>, key: T -> int)
    requires SortedBy(s, key) && multiset(s) == multiset(t) && s != []
    ensures s[|s| - 1] in t
    ensures forall q :: q in t ==> key(q) <= key(s[|s| - 1])
  {
    assert s[|s| - 1] in multiset(s);
    forall q | q in t ensures key(q) <= key(s[|s| - 1]) {
      assert q in multiset(t);
      assert q in s;
    }
  }

  /** "latest" yields a record with the greatest version number; it fails only when no entry contributes a record. */
  lemma LatestIsGreatest(name: string, es: seq<Entry>, rs: seq<Record>)
    requires Blamed(es) && IsFinalReleases(name, es, rs)
    ensures Select(rs, "latest", name).Err? <==> Records(name, es) == []
    ensures Select(rs, "latest", name).Ok? ==>
              var r := Select(rs, "latest", name).value;
              r in Records(name, es) && forall q :: q in Records(name, es) ==> Key(q) <= Key(r)
  {
    var recs := Records(name, es);
    assert |rs| == |multiset(rs)| == |multiset(recs)| == |recs|;
    if rs != [] {
      LastIsGreatest(rs, recs, Key);
    }
  }

  /** Any other selector yields a record of exactly that version, and fails only when no record has it. */
  lemma ExactSelection(name: string, es: seq<Entry>, rs: seq<Record>, spec: string)
    requires Blamed(es) && IsFinalReleases(name, es, rs)
    requires spec != "latest"
    ensures Select(rs, spec, name).Ok? <==> exists q :: q in Records(name, es) && q.version == spec
    ensures Select(rs, spec, name).Ok? ==>
              Select(rs, spec, name).value in Records(name, es) && Select(rs, spec, name).value.version == spec
  {
    var recs := Records(name, es);
    assert forall q :: q in recs <==> q in rs by {
      forall q ensures q in recs <==> q in rs {
        assert q in recs <==> q in multiset(recs);
        assert q in rs <==> q in multiset(rs);
      }
    }
  }

  /** When `x` has a key greater than every other element, a sorted permutation ends with `x`. */
  lemma LastOfSorted<T>(s: seq<T>, t: seq<T>, key: T -> int, x: T)
    requires SortedBy(s, key) && multiset(s) == multiset(t)
    requires x in t && forall q :: q in t && q != x ==> key(q) < key(x)
    ensures s != [] && s[|s| - 1] == x
  {
    assert x in multiset(t);
    assert s != [];
    LastIsGreatest(s, t, key);
  }

  lemma KeyOfDecimal(r: Record, n: nat)
    requires r.version == Decimal(n)
    ensures Key(r) == n
  {
    ToIOfDecimal(n, []);
    assert Decimal(n) + [] == Decimal(n);
  }

  /** A sorted permutation of two elements with distinct keys is in key order. */
  lemma SortedPair<T>(s: seq<T>, a: T, b: T, key: T -> int)
    requires SortedBy(s, key) && multiset(s) == multiset([a, b])
    requires key(a) < key(b)
    ensures s == [a, b]
  {
    LastOfSorted(s, [a, b], key, b);
    assert |s| == 2;
    assert a in multiset(s) && a != b;
  }

  /** The walk of a releases tree holding exactly `<name>-<m>.yml` and `<name>-<n>.yml`, each blamed to one hunk. */
  function TwoManifests(name: string, m: nat, n: nat, c1: string, c2: string, t1: int, t2: int): (es: seq<Entry>)
    ensures Blamed(es)
  {
    var f1 := name + "-" + Decimal(m) + ".yml";
    var f2 := name + "-" + Decimal(n) + ".yml";
    [Entry(f1, RegularFileMode, [Hunk(c1, t1, "releases/" + f1)]), Entry(f2, RegularFileMode, [Hunk(c2, t2, "releases/" + f2)])]
  }

  /** The records of that walk: one per manifest, in walk order. */
  lemma TwoManifestRecords(name: string, m: nat, n: nat, c1: string, c2: string, t1: int, t2: int)
    ensures Records(name, TwoManifests(name, m, n, c1, c2, t1, t2)) ==
              [Record(Decimal(m), "releases/" + (name + "-" + Decimal(m) + ".yml"), c1),
               Record(Decimal(n), "releases/" + (name + "-" + Decimal(n) + ".yml"), c2)]
  {
    var es := TwoManifests(name, m, n, c1, c2, t1, t2);
    VersionOfManifestName(name, Decimal(m));
    VersionOfManifestName(name, Decimal(n));
    var r1 := Record(Decimal(m), "releases/" + (name + "-" + Decimal(m) + ".yml"), c1);
    var r2 := Record(Decimal(n), "releases/" + (name + "-" + Decimal(n) + ".yml"), c2);
    assert LatestHunk(es[0].blame) == 0 && LatestHunk(es[1].blame) == 0;
    assert RecordOf(name, es[0]) == Some(r1);
    assert RecordOf(name, es[1]) == Some(r2);
    assert es[..1] == [es[0]] && [es[0]][..0] == [];
    assert Records(name, es[..1]) == [r1];
  }

  /**
    Two manifests of release `name`, `<name>-<m>.yml` last touched by commit
    `c1` and `<name>-<n>.yml` by `c2`, with `m < n`: "latest" is version `n` at
    `c2`, and the selector `m` is at `c1`.
   */
  lemma TwoReleasesExample(name: string, m: nat, n: nat, c1: string, c2: string, t1: int, t2: int,
                           rs: seq<Record>)
    requires m < n
    requires IsFinalReleases(name, TwoManifests(name, m, n, c1, c2, t1, t2), rs)
    ensures Select(rs, "latest", name) == Ok(Record(Decimal(n), "releases/" + (name + "-" + Decimal(n) + ".yml"), c2))
    ensures Decimal(m) != "latest" ==>
              Select(rs, Decimal(m), name) == Ok(Record(Decimal(m), "releases/" + (name + "-" + Decimal(m) + ".yml"), c1))
  {
    TwoManifestRecords(name, m, n, c1, c2, t1, t2);
    var r1 := Record(Decimal(m), "releases/" + (name + "-" + Decimal(m) + ".yml"), c1);
    var r2 := Record(Decimal(n), "releases/" + (name + "-" + Decimal(n) + ".yml"), c2);
    KeyOfDecimal(r1, m);
    KeyOfDecimal(r2, n);
    SortedPair(rs, r1, r2, Key);
  }
}

=== FILE: release_descriptor.dfy ===
/**
  One release of a deployment: where its git repository lives, which final
  release the configured version selects, the accessors derived from that
  selection, and the checkouts that bring the repository (and its
  submodules) to the selected commit.

  The git repository and the file system are snapshots given to the model:
  `Repository` says which tree entries (with their blame) each commit holds
  under each directory, which revisions resolve to which object ids and
  which submodules exist; `Filesystem` says which directories exist and
  what a walk of the templates directory meets.
 */
module ReleaseDescriptor {
  import opened Wrappers
  import opened RubyText
  import opened RubyPath
  import opened FinalReleases
  import opened SubmoduleDetection

  // ---------------------------------------------------------------------------
  // Inputs

  /** A scalar of the release configuration as YAML loads it. */
  datatype Scalar = Text(text: string) | Integer(number: int) | Nil

  /** The release's entry in the deployment configuration. */
  datatype ReleaseConfig = ReleaseConfig(
    name: string, ref: Option<string>, path: Option<string>,
    version: Scalar, git: Option<string>, url: Option<string>)

  /**
    The release repository: its working directory, its initial HEAD commit,
    for each commit the blob entries of each directory of its tree, the
    object id each revision text resolves to, and its submodules.
   */
  datatype Repository = Repository(
    workdir: string, head: string,
    commits: map<string, map<string, seq<Entry>>>,
    objects: map<string, string>,
    submodules: seq<Submodule>)

  /**
    The file system: the current directory, the directories that exist and
    are not symlinks, the paths that exist, and what a walk of the templates
    directory meets, in walk order.
   */
  datatype Filesystem = Filesystem(
    cwd: string, plainDirs: set<string>, existing: set<string>, templateWalk: seq<FsEntry>)

  /** The failures of the release accessors; a failed selection keeps its own reason. */
  datatype ReleaseError =
    | TreeNotFound(dir: string)
    | Selection(failure: SelectError)
    | ObjectNotFound(revision: string)

  /** Which working tree a checkout acts on. */
  datatype Worktree = Primary | SubmoduleTree(path: string)

  /** One call into git: `checkout_tree` writes the files, `checkout` also moves HEAD. */
  datatype CheckoutCall = CheckoutTree(tree: Worktree, oid: string) | CheckoutHead(tree: Worktree, oid: string)

  // ---------------------------------------------------------------------------
  // Pure pieces

  /** `to_s` of a configured version: nil gives the empty text, an integer its decimal digits. */
  function ScalarText(x: Scalar): (r: string)
    ensures x.Text? ==> r == x.text
    ensures x.Nil? ==> r == []
    ensures x.Integer? ==> ToI(r) == x.number
    ensures x.Integer? && x.number >= 0 ==> r == Decimal(x.number)
    ensures x.Integer? && x.number < 0 ==> r == "-" + Decimal(-x.number)
  {
    match x
    case Text(t) => t
    case Integer(i) => ToIRoundTrip(i); IntToS(i)
    case Nil => []
  }

  /** Every non-symlink entry of every tree has a blame. */
  predicate AllBlamed(commits: map<string, map<string, seq<Entry>>>) {
    forall c, d :: c in commits && d in commits[c] ==> Blamed(commits[c][d])
  }

  /** `head.target.tree.path(dir)`: the entries under `dir` in the tree of commit `head`. */
  function TreeAt(repo: Repository, head: string, dir: string): (r: Result<seq<Entry>, ReleaseError>)
    ensures r.Ok? <==> head in repo.commits && dir in repo.commits[head]
    ensures r.Ok? ==> r.value == repo.commits[head][dir]
    ensures r.Err? ==> r.error == TreeNotFound(dir)
  {
    if head in repo.commits && dir in repo.commits[head] then Ok(repo.commits[head][dir])
    else Err(TreeNotFound(dir))
  }

  /** The directory under which the final release manifests sit in the old layout. */
  function ReleasesBase(path: Option<string>): string {
    match path
    case None => "releases"
    case Some(p) => Join(p, "releases")
  }

  /** The directory whose existence marks the new layout, `releases/<name>`. */
  function ProbeDir(repoDir: string, path: Option<string>, name: string): string {
    Join(Join(repoDir, ReleasesBase(path)), name)
  }

  /** `releases_dir`, relative to the repository, once the layout is known. */
  function ReleasesDirFor(path: Option<string>, name: string, newStyle: bool): (r: string)
    ensures !newStyle ==> r == ReleasesBase(path)
  {
    var dir := if newStyle then "releases/" + name else "releases";
    match path
    case None => dir
    case Some(p) => Join(p, dir)
  }

  /** A path piece that neither starts nor ends with a slash. */
  predicate Plain(s: string) {
    s != [] && s[0] != '/' && s[|s| - 1] != '/'
  }

  /**
    In the new layout, the manifests are read from exactly the directory whose
    existence was probed, when the pieces involved are plain.
   */
  lemma ProbeMatchesReleasesDir(repoDir: string, path: Option<string>, name: string)
    requires repoDir == [] || repoDir[|repoDir| - 1] != '/'
    requires Plain(name)
    requires path.Some? ==> Plain(path.value)
    ensures Join(repoDir, ReleasesDirFor(path, name, true)) == ProbeDir(repoDir, path, name)
  {
    match path
    case None => ProbeMatchesAtTop(repoDir, name);
    case Some(p) => ProbeMatchesUnderPath(repoDir, p, name);
  }

  lemma ProbeMatchesAtTop(repoDir: string, name: string)
    requires repoDir == [] || repoDir[|repoDir| - 1] != '/'
    requires Plain(name)
    ensures Join(repoDir, "releases/" + name) == Join(Join(repoDir, "releases"), name)
  {
    assert "releases/" + name == "releases" + "/" + name;
    JoinAssoc(repoDir, "releases", name);
  }

  lemma ProbeMatchesUnderPath(repoDir: string, p: string, name: string)
    requires repoDir == [] || repoDir[|repoDir| - 1] != '/'
    requires Plain(name) && Plain(p)
    ensures Join(repoDir, Join(p, "releases/" + name)) == Join(Join(repoDir, Join(p, "releases")), name)
  {
    var rel := Join(p, "releases");
    assert Join(p, "releases/" + name) == rel + "/" + name by {
      assert "releases/" + name == "releases" + "/" + name;
      JoinAssoc(p, "releases", name);
      JoinPlain(p, "releases");
      JoinPlain(rel, name);
    }
    assert Plain(rel) by {
      JoinPlain(p, "releases");
    }
    JoinAssoc(repoDir, rel, name);
  }

  /** `manifest_file`: the manifest path taken inside the repository. */
  function ManifestFileFor(repoDir: string, manifest: string): (r: string)
    ensures |manifest| <= |r| && StripTrailingSlashes(repoDir) <= r && r[|r| - |manifest|..] == manifest
    ensures forall i :: |StripTrailingSlashes(repoDir)| <= i < |r| - |manifest| ==> r[i] == '/'
    ensures !StartsWith(manifest, "/") ==> |StripTrailingSlashes(repoDir)| < |r| - |manifest|
  {
    JoinLayout(repoDir, manifest);
    Join(repoDir, manifest)
  }

  /** `File.join(w, 'templates')`: `w` without its trailing slashes, then only slashes, then `templates`. */
  lemma TemplatesLayout(w: string)
    ensures var r := Join(w, "templates");
      && StripTrailingSlashes(w) <= r
      && |r| >= 10 && r[|r| - 10..] == "/templates"
      && forall i :: |StripTrailingSlashes(w)| <= i < |r| - 9 ==> r[i] == '/'
  {
    JoinLayout(w, "templates");
    JoinEndsWith(w, "templates");
    assert "/" + "templates" == "/templates";
  }

  /** `"#{name}/#{version}"` */
  function NameVersionFor(name: string, version: string): (r: string)
    ensures |r| == |name| + 1 + |version|
    ensures r[..|name|] == name && r[|name|] == '/' && r[|name| + 1..] == version
  {
    name + "/" + version
  }

  /** The marker the download URL carries in place of the version. */
  const VersionMarker: string := "^VERSION^"

  /** `url.gsub("^VERSION^", version)` */
  function UrlFor(template: string, version: string): (r: string)
    ensures version == VersionMarker ==> r == template
  {
    ReplaceAll(template, VersionMarker, version)
  }

  /**
    A URL template made of marker-free pieces joined by the marker becomes
    the same pieces joined by the version.
   */
  lemma UrlSubstitutes(parts: seq<string>, version: string)
    requires forall k, i :: 0 <= k < |parts| && 0 <= i < |parts[k]| ==> parts[k][i] != '^'
    ensures UrlFor(Interleave(parts, VersionMarker), version) == Interleave(parts, version)
  {
    ReplaceAllInterleave(parts, VersionMarker, version);
  }

  /** A URL in which the marker never occurs is used as it is, whatever the version. */
  lemma UrlWithoutMarker(template: string, version: string)
    requires Absent(template, VersionMarker)
    ensures UrlFor(template, version) == template
  {
    ReplaceAllNoMatch(template, VersionMarker, version);
  }

  // ---------------------------------------------------------------------------
  // The release

  class Release {
    const name: string
    const refSpec: Option<string>
    const path: Option<string>
    const specVersion: string
    const gitUrl: Option<string>
    const repoDir: string
    const urlTemplate: Option<string>
    const repo: Repository
    const fs: Filesystem

    /** The commit HEAD of the release repository points to. */
    var head: string
    /** The memoised `final_releases`. */
    var finalReleases: Option<seq<Record>>
    /** The entries the memoised final releases were computed from. */
    ghost var walked: seq<Entry>
    /** The checkout calls made so far, oldest first. */
    var checkouts: seq<CheckoutCall>

    ghost predicate Valid()
      reads this
    {
      && AllBlamed(repo.commits)
      && (finalReleases.Some? ==> Blamed(walked) && IsFinalReleases(name, walked, finalReleases.value))
    }

    constructor (config: ReleaseConfig, releasesDir: string, repo: Repository, fs: Filesystem)
      requires AllBlamed(repo.commits)
      ensures name == config.name && refSpec == config.ref && path == config.path
      ensures specVersion == ScalarText(config.version) && gitUrl == config.git && urlTemplate == config.url
      ensures repoDir == Join(releasesDir, config.name)
      ensures this.repo == repo && this.fs == fs && head == repo.head
      ensures finalReleases.None? && checkouts == []
      ensures Valid()
    {
      name := config.name;
      refSpec := config.ref;
      path := config.path;
      specVersion := ScalarText(config.version);
      gitUrl := config.git;
      repoDir := Join(releasesDir, config.name);
      urlTemplate := config.url;
      this.repo := repo;
      this.fs := fs;
      head := repo.head;
      finalReleases := None;
      walked := [];
      checkouts := [];
    }

    /** `new_style_repo`: `releases/<name>` exists as a directory that is not a symlink. */
    predicate NewStyleRepo() {
      ProbeDir(repoDir, path, name) in fs.plainDirs
    }

    /** The repository directory has no trailing slash, and the release name and path are plain pieces. */
    predicate PlainNames() {
      && (repoDir == [] || repoDir[|repoDir| - 1] != '/')
      && Plain(name)
      && (path.Some? ==> Plain(path.value))
    }

    /**
      `releases_dir`, relative to the repository: `releases` (under the
      configured path) in the old layout; in the new layout, with plain
      names, the directory whose existence `NewStyleRepo` tested.
     */
    function ReleasesDir(): (r: string)
      ensures !NewStyleRepo() ==> r == ReleasesBase(path)
      ensures NewStyleRepo() && PlainNames() ==> Join(repoDir, r) == ProbeDir(repoDir, path, name)
    {
      if NewStyleRepo() && PlainNames() then
        ProbeMatchesReleasesDir(repoDir, path, name);
        ReleasesDirFor(path, name, true)
      else
        ReleasesDirFor(path, name, NewStyleRepo())
    }

    /** `release_dir`: the repository itself, or the configured path inside it. */
    function ReleaseDir(): (r: string)
      ensures path.None? ==> r == repoDir
      ensures path.Some? ==> |path.value| <= |r| && StripTrailingSlashes(repoDir) <= r && r[|r| - |path.value|..] == path.value
      ensures path.Some? ==> forall i :: |StripTrailingSlashes(repoDir)| <= i < |r| - |path.value| ==> r[i] == '/'
      ensures path.Some? && !StartsWith(path.value, "/") ==> |StripTrailingSlashes(repoDir)| < |r| - |path.value|
    {
      match path
      case None => repoDir
      case Some(p) => JoinLayout(repoDir, p); Join(repoDir, p)
    }

    /** `templates_dir`: the `templates` directory at the top of the repository's working tree. */
    function TemplatesDir(): (r: string)
      ensures StripTrailingSlashes(repo.workdir) <= r
      ensures |r| >= 10 && r[|r| - 10..] == "/templates"
      ensures forall i :: |StripTrailingSlashes(repo.workdir)| <= i < |r| - 9 ==> r[i] == '/'
    {
      TemplatesLayout(repo.workdir);
      Join(repo.workdir, "templates")
    }

    /** `ref`: the object id of the configured ref, if one is configured. */
    function Ref(): (r: Result<Option<string>, ReleaseError>)
      ensures refSpec.None? ==> r == Ok(None)
      ensures refSpec.Some? ==> (r.Ok? <==> refSpec.value in repo.objects)
      ensures refSpec.Some? && r.Ok? ==> r.value == Some(repo.objects[refSpec.value])
      ensures r.Err? ==> r.error == ObjectNotFound(refSpec.value)
    {
      match refSpec
      case None => Ok(None)
      case Some(x) => if x in repo.objects then Ok(Some(repo.objects[x])) else Err(ObjectNotFound(x))
    }

    /**
      How the memo moves in one query made while HEAD is `at`: a computed
      value stays; otherwise it is computed from the releases tree, when that
      tree exists.
     */
    ghost predicate MemoStep(before: Option<seq<Record>>, beforeWalked: seq<Entry>, at: string)
      reads this
    {
      if before.Some? then finalReleases == before && walked == beforeWalked
      else match TreeAt(repo, at, ReleasesDir())
        case Err(_) => finalReleases.None? && walked == beforeWalked
        case Ok(es) => finalReleases.Some? && walked == es
    }

    /** What `release` answers once the memo is in place. */
    ghost function Chosen(): Result<Record, ReleaseError>
      reads this
    {
      match finalReleases
      case None => Err(TreeNotFound(ReleasesDir()))
      case Some(rs) =>
        match Select(rs, specVersion, name)
        case Ok(r) => Ok(r)
        case Err(e) => Err(Selection(e))
    }

    /** `final_releases`: computed once from the releases tree at HEAD, then served from the memo. */
    method LoadFinalReleases() returns (r: Result<seq<Record>, ReleaseError>)
      requires Valid()
      modifies this
      ensures Valid() && head == old(head) && checkouts == old(checkouts)
      ensures MemoStep(old(finalReleases), old(walked), head)
      ensures r.Ok? <==> finalReleases.Some?
      ensures r.Ok? ==> r.value == finalReleases.value
      ensures r.Err? ==> r.error == TreeNotFound(ReleasesDir())
    {
      if finalReleases.Some? {
        return Ok(finalReleases.value);
      }
      var tree := TreeAt(repo, head, ReleasesDir());
      if tree.Err? {
        return Err(tree.error);
      }
      var rs := ComputeFinalReleases(name, tree.value);
      finalReleases := Some(rs);
      walked := tree.value;
      r := Ok(rs);
    }

    /** `release`: the final release the configured version selects. */
    method Selected() returns (r: Result<Record, ReleaseError>)
      requires Valid()
      modifies this
      ensures Valid() && head == old(head) && checkouts == old(checkouts)
      ensures MemoStep(old(finalReleases), old(walked), head)
      ensures r == Chosen()
    {
      var all := LoadFinalReleases();
      if all.Err? {
        return Err(all.error);
      }
      var s := Select(all.value, specVersion, name);
      if s.Err? {
        return Err(Selection(s.error));
      }
      r := Ok(s.value);
    }

    /** `version` */
    method Version() returns (r: Result<string, ReleaseError>)
      requires Valid()
      modifies this
      ensures Valid() && head == old(head) && checkouts == old(checkouts)
      ensures MemoStep(old(finalReleases), old(walked), head)
      ensures r.Ok? <==> Chosen().Ok?
      ensures r.Ok? ==> r.value == Chosen().value.version
      ensures r.Err? ==> r.error == Chosen().error
    {
      var s := Selected();
      if s.Err? {
        return Err(s.error);
      }
      r := Ok(s.value.version);
    }

    /** `manifest` */
    method Manifest() returns (r: Result<string, ReleaseError>)
      requires Valid()
      modifies this
      ensures Valid() && head == old(head) && checkouts == old(checkouts)
      ensures MemoStep(old(finalReleases), old(walked), head)
      ensures r.Ok? <==> Chosen().Ok?
      ensures r.Ok? ==> r.value == Chosen().value.manifest
      ensures r.Err? ==> r.error == Chosen().error
    {
      var s := Selected();
      if s.Err? {
        return Err(s.error);
      }
      r := Ok(s.value.manifest);
    }

    /** `manifest_file` */
    method ManifestFile() returns (r: Result<string, ReleaseError>)
      requires Valid()
      modifies this
      ensures Valid() && head == old(head) && checkouts == old(checkouts)
      ensures MemoStep(old(finalReleases), old(walked), head)
      ensures r.Ok? <==> Chosen().Ok?
      ensures r.Ok? ==> r.value == ManifestFileFor(repoDir, Chosen().value.manifest)
      ensures r.Err? ==> r.error == Chosen().error
    {
      var m := Manifest();
      if m.Err? {
        return Err(m.error);
      }
      r := Ok(ManifestFileFor(repoDir, m.value));
    }

    /** `name_version` */
    method NameVersion() returns (r: Result<string, ReleaseError>)
      requires Valid()
      modifies this
      ensures Valid() && head == old(head) && checkouts == old(checkouts)
      ensures MemoStep(old(finalReleases), old(walked), head)
      ensures r.Ok? <==> Chosen().Ok?
      ensures r.Ok? ==> r.value == NameVersionFor(name, Chosen().value.version)
      ensures r.Err? ==> r.error == Chosen().error
    {
      var v := Version();
      if v.Err? {
        return Err(v.error);
      }
      r := Ok(NameVersionFor(name, v.value));
    }

    /** `url`: without a configured URL the answer is nil and no release is looked up. */
    method Url() returns (r: Result<Option<string>, ReleaseError>)
      requires Valid()
      modifies this
      ensures Valid() && head == old(head) && checkouts == old(checkouts)
      ensures urlTemplate.None? ==> r == Ok(None) && finalReleases == old(finalReleases) && walked == old(walked)
      ensures urlTemplate.Some? ==> MemoStep(old(finalReleases), old(walked), head)
      ensures urlTemplate.Some? ==> (r.Ok? <==> Chosen().Ok?)
      ensures urlTemplate.Some? && r.Ok? ==> r.value == Some(UrlFor(urlTemplate.value, Chosen().value.version))
      ensures urlTemplate.Some? && r.Err? ==> r.error == Chosen().error
    {
      if urlTemplate.None? {
        return Ok(None);
      }
      var v := Version();
      if v.Err? {
        return Err(v.error);
      }
      r := Ok(Some(UrlFor(urlTemplate.value, v.value)));
    }

    /** `update_repo_with_ref`: the working tree first, then HEAD, both forced to `oid`. */
    method CheckoutAt(tree: Worktree, oid: string)
      modifies this
      ensures checkouts == old(checkouts) + [CheckoutTree(tree, oid), CheckoutHead(tree, oid)]
      ensures head == if tree == Primary then oid else old(head)
      ensures finalReleases == old(finalReleases) && walked == old(walked)
    {
      checkouts := checkouts + [CheckoutTree(tree, oid), CheckoutHead(tree, oid)];
      if tree == Primary {
        head := oid;
      }
    }

    /**
      `update_repo`: check out the configured ref when there is one (the
      version is then not looked up at all), else the commit of the selected
      final release.
     */
    method UpdateRepo() returns (r: Result<string, ReleaseError>)
      requires Valid()
      modifies this
      ensures Valid()
      ensures refSpec.Some? ==> finalReleases == old(finalReleases) && walked == old(walked)
      ensures refSpec.Some? ==> (r.Ok? <==> refSpec.value in repo.objects)
      ensures refSpec.Some? && r.Ok? ==> r.value == repo.objects[refSpec.value]
      ensures refSpec.Some? && r.Err? ==> r.error == ObjectNotFound(refSpec.value)
      ensures refSpec.None? ==> MemoStep(old(finalReleases), old(walked), old(head))
      ensures refSpec.None? ==> (r.Ok? <==> Chosen().Ok?)
      ensures refSpec.None? && r.Ok? ==> r.value == Chosen().value.commit
      ensures refSpec.None? && r.Err? ==> r.error == Chosen().error
      ensures r.Ok? ==> checkouts == old(checkouts) + [CheckoutTree(Primary, r.value), CheckoutHead(Primary, r.value)]
      ensures r.Ok? ==> head == r.value
      ensures r.Err? ==> checkouts == old(checkouts) && head == old(head)
    {
      var target: string;
      var ref := Ref();
      if ref.Err? {
        return Err(ref.error);
      }
      if ref.value.Some? {
        target := ref.value.value;
      } else {
        var s := Selected();
        if s.Err? {
          return Err(s.error);
        }
        target := s.value.commit;
      }
      CheckoutAt(Primary, target);
      r := Ok(target);
    }

    /** `update_submodule`: check out the submodule's own working tree at its pinned commit. */
    method UpdateSubmodule(sub: Submodule)
      modifies this
      ensures checkouts == old(checkouts) + [CheckoutTree(SubmoduleTree(sub.path), sub.headOid), CheckoutHead(SubmoduleTree(sub.path), sub.headOid)]
      ensures head == old(head) && finalReleases == old(finalReleases) && walked == old(walked)
    {
      CheckoutAt(SubmoduleTree(sub.path), sub.headOid);
    }

    /** `symlink_templates` of this release's templates directory. */
    method TemplateTargets() returns (ts: seq<string>)
      ensures ts == if TemplatesDir() in fs.existing then Targets(fs.templateWalk, fs.cwd) else []
    {
      ts := SymlinkTemplates(TemplatesDir() in fs.existing, fs.templateWalk, fs.cwd);
    }

    /** `required_submodules`: for each template symlink in walk order, the submodule it points into. */
    method RequiredSubmodules() returns (req: seq<Submodule>)
      ensures req == Required(repo.workdir, repo.submodules,
                              if TemplatesDir() in fs.existing then Targets(fs.templateWalk, fs.cwd) else [])
      ensures forall s :: s in req ==> s in repo.submodules
    {
      var ts := TemplateTargets();
      req := SubmoduleDetection.RequiredSubmodules(repo.workdir, repo.submodules, ts);
      forall s | s in req
        ensures s in repo.submodules
      {
        RequiredMembership(repo.workdir, repo.submodules, ts, s);
      }
    }
  }
}

=== FILE: ruby_path.dfy ===
/**
  Ruby's path helpers as the release logic uses them on a POSIX system:
  `File.join`, `File.dirname` and `File.expand_path`. Paths are plain strings
  and `/` is the only separator.
 */
module RubyPath {
  import opened Wrappers
  import opened RubyText

  /** The text with every trailing `/` removed. */
  function StripTrailingSlashes(s: string): (r: string)
    ensures r <= s
    ensures r == [] || r[|r| - 1] != '/'
    ensures forall i :: |r| <= i < |s| ==> s[i] == '/'
  {
    if s != [] && s[|s| - 1] == '/' then StripTrailingSlashes(s[..|s| - 1]) else s
  }

  /**
    `File.join(a, b)`: when `b` starts with `/`, the trailing slashes of `a` are
    dropped; otherwise a `/` is inserted unless `a` already ends with one.
   */
  function Join(a: string, b: string): string {
    if b != [] && b[0] == '/' then StripTrailingSlashes(a) + b
    else if a != [] && a[|a| - 1] == '/' then a + b
    else a + "/" + b
  }

  /**
    What `Join` builds: `a` without its trailing slashes, then a run of
    slashes (at least one unless `b` brings its own), then `b`.
   */
  lemma JoinLayout(a: string, b: string)
    ensures |StripTrailingSlashes(a)| + |b| <= |Join(a, b)| <= |a| + 1 + |b|
    ensures StripTrailingSlashes(a) <= Join(a, b) && Join(a, b)[|Join(a, b)| - |b|..] == b
    ensures forall i :: |StripTrailingSlashes(a)| <= i < |Join(a, b)| - |b| ==> Join(a, b)[i] == '/'
    ensures StartsWith(b, "/") || |StripTrailingSlashes(a)| < |Join(a, b)| - |b|
  {
    var t := StripTrailingSlashes(a);
    var m := JoinGap(a, b);
    JoinSplit(a, b);
    JoinGapSlashes(a, b);
    SlashesBetween(t, m, b);
  }

  /** The slashes `Join` puts between `a` without its trailing slashes and `b`. */
  ghost function JoinGap(a: string, b: string): string {
    if b != [] && b[0] == '/' then []
    else if a != [] && a[|a| - 1] == '/' then a[|StripTrailingSlashes(a)|..]
    else "/"
  }

  lemma JoinSplit(a: string, b: string)
    ensures Join(a, b) == StripTrailingSlashes(a) + JoinGap(a, b) + b
  {
    if !(b != [] && b[0] == '/') && a != [] && a[|a| - 1] == '/' {
      var t := StripTrailingSlashes(a);
      assert a == t + a[|t|..];
    }
  }

  lemma JoinGapSlashes(a: string, b: string)
    ensures |JoinGap(a, b)| <= |a| - |StripTrailingSlashes(a)| + 1
    ensures StartsWith(b, "/") || JoinGap(a, b) != []
    ensures forall i :: 0 <= i < |JoinGap(a, b)| ==> JoinGap(a, b)[i] == '/'
  {
    var t := StripTrailingSlashes(a);
    var m := JoinGap(a, b);
    if !(b != [] && b[0] == '/') && a != [] && a[|a| - 1] == '/' {
      assert a[|t|] == '/';
      assert forall i :: 0 <= i < |m| ==> m[i] == a[|t| + i];
    }
  }

  /** The pieces of `t + m + b` sit where they belong. */
  lemma SlashesBetween(t: string, m: string, b: string)
    requires forall i :: 0 <= i < |m| ==> m[i] == '/'
    ensures t <= t + m + b && (t + m + b)[|t| + |m|..] == b
    ensures forall i :: |t| <= i < |t| + |m| ==> (t + m + b)[i] == '/'
  {
    var j := t + m + b;
    assert j[..|t|] == t;
    assert j[|t| + |m|..] == b;
    forall i | |t| <= i < |t| + |m|
      ensures j[i] == '/'
    {
      assert j[i] == m[i - |t|];
    }
  }

  /** A relative piece joined to any directory ends the result, with a slash just before it. */
  lemma JoinEndsWith(a: string, b: string)
    requires b != [] && b[0] != '/'
    ensures StripTrailingSlashes(a) <= Join(a, b)
    ensures |b| < |Join(a, b)| && Join(a, b)[|Join(a, b)| - |b| - 1..] == "/" + b
  {
    JoinSplit(a, b);
    JoinGapSlashes(a, b);
    EndsAfterSlash(StripTrailingSlashes(a), JoinGap(a, b), b);
  }

  /** In `t + m + b`, where `m` ends with a slash, `b` comes right after that slash. */
  lemma EndsAfterSlash(t: string, m: string, b: string)
    requires m != [] && m[|m| - 1] == '/'
    ensures t <= t + m + b && (t + m + b)[|t + m + b| - |b| - 1..] == "/" + b
  {
    var j := t + m + b;
    assert j[..|t|] == t;
    assert m == m[..|m| - 1] + "/";
    assert j == (t + m[..|m| - 1]) + ("/" + b);
  }

  /** Joining two plain pieces puts exactly one slash between them. */
  lemma JoinPlain(a: string, b: string)
    requires a == [] || a[|a| - 1] != '/'
    requires b == [] || b[0] != '/'
    ensures Join(a, b) == a + "/" + b
  {}

  /** Joining a plain middle piece and then a relative tail is joining the two with a slash between. */
  lemma JoinAssoc(a: string, b: string, c: string)
    requires b != [] && b[0] != '/' && b[|b| - 1] != '/'
    requires c == [] || c[0] != '/'
    ensures Join(a, b + "/" + c) == Join(Join(a, b), c)
  {
    var bc := b + "/" + c;
    var sep := if a != [] && a[|a| - 1] == '/' then [] else "/";
    var ab := a + sep + b;
    assert Join(a, bc) == a + sep + bc by {
      assert bc[0] == b[0];
    }
    assert Join(a, b) == ab;
    assert Join(ab, c) == ab + "/" + c by {
      assert ab[|ab| - 1] == b[|b| - 1];
      JoinPlain(ab, c);
    }
    assert a + sep + bc == ab + "/" + c;
  }

  /** The index of the last `/` in `s`, if any. */
  function LastSlash(s: string): (r: Option<nat>)
    ensures r.Some? ==> r.value < |s| && s[r.value] == '/' && forall i :: r.value < i < |s| ==> s[i] != '/'
    ensures r.None? ==> forall i :: 0 <= i < |s| ==> s[i] != '/'
  {
    if s == [] then None
    else if s[|s| - 1] == '/' then Some(|s| - 1)
    else LastSlash(s[..|s| - 1])
  }

  /** The number of slashes `s` starts with. */
  function LeadingSlashes(s: string): (n: nat)
    ensures n <= |s| && (n == |s| || s[n] != '/')
    ensures forall i :: 0 <= i < n ==> s[i] == '/'
  {
    if s != [] && s[0] == '/' then 1 + LeadingSlashes(s[1..]) else 0
  }

  /**
    `File.dirname(p)`: everything before the last component, without the
    slashes that separate it. A run of leading slashes counts as a single
    root slash; the result is "." for a single relative component and "/"
    for one at the root.
   */
  function Dirname(p: string): (r: string)
    ensures r != []
    ensures r == "/" || r[|r| - 1] != '/'
    ensures StartsWith(p, "/") <==> r[0] == '/'
    ensures StartsWith(r, "/") && |r| >= 2 ==> r[1] != '/'
  {
    var n := LeadingSlashes(p);
    var q := StripTrailingSlashes(p[n..]);
    match LastSlash(q)
    case None => if n == 0 then "." else "/"
    case Some(i) =>
      var d := StripTrailingSlashes(q[..i]);
      assert d != [] && d[0] == p[n] by {
        assert q[0] == p[n] != '/';
      }
      if n == 0 then d else "/" + d
  }

  lemma InterleaveHead(ls: seq<string>, sep: string)
    requires ls != [] && ls[0] != []
    ensures Interleave(ls, sep) != [] && Interleave(ls, sep)[0] == ls[0][0]
  {
  }

  lemma InterleaveLast(ds: seq<string>, sep: string)
    requires ds != [] && ds[|ds| - 1] != []
    ensures Interleave(ds, sep) != []
    ensures Interleave(ds, sep)[|Interleave(ds, sep)| - 1] == ds[|ds| - 1][|ds[|ds| - 1]| - 1]
  {
    var n := |ds|;
    if n > 1 {
      assert ds == ds[..n - 1] + [ds[n - 1]];
      InterleaveAppend(ds[..n - 1], [ds[n - 1]], sep);
    }
  }

  /** The directory of a normal absolute path is the path without its last component. */
  lemma DirnameOfComponents(ds: seq<string>, f: string)
    requires Clean(ds + [f])
    ensures Dirname("/" + Interleave(ds + [f], "/")) == "/" + Interleave(ds, "/")
  {
    CleanSplit(ds, f);
    var x := Interleave(ds + [f], "/");
    assert x != [] && x[0] != '/' && x[|x| - 1] != '/' by {
      InterleaveEnds(ds + [f]);
    }
    DirnameRooted(x);
    if ds == [] {
      assert x == f;
      assert LastSlash(x).None?;
    } else {
      var y := Interleave(ds, "/");
      assert x == y + "/" + f by {
        InterleaveAppend(ds, [f], "/");
      }
      assert LastSlash(x) == Some(|y|) by {
        LastSlashBefore(y, f);
      }
      assert x[..|y|] == y;
      assert StripTrailingSlashes(y) == y by {
        InterleaveEnds(ds);
      }
    }
  }

  /** The directory of "/" followed by a path with no slash at either end. */
  lemma DirnameRooted(x: string)
    requires x != [] && x[0] != '/' && x[|x| - 1] != '/'
    ensures Dirname("/" + x) == match LastSlash(x)
      case None => "/"
      case Some(i) => "/" + StripTrailingSlashes(x[..i])
  {
    var p := "/" + x;
    assert p[1..] == x && p[1] == x[0];
    assert LeadingSlashes(p) == 1;
    assert StripTrailingSlashes(x) == x;
  }

  lemma CleanSplit(ds: seq<string>, f: string)
    requires Clean(ds + [f])
    ensures Clean(ds) && f != [] && '/' !in f
  {
    assert forall k :: 0 <= k < |ds| ==> ds[k] == (ds + [f])[k];
    assert (ds + [f])[|ds|] == f;
  }

  /** Joined clean components neither start nor end with a slash. */
  lemma InterleaveEnds(cs: seq<string>)
    requires Clean(cs) && cs != []
    ensures Interleave(cs, "/") != []
    ensures Interleave(cs, "/")[0] != '/' && Interleave(cs, "/")[|Interleave(cs, "/")| - 1] != '/'
  {
    assert cs[0] != [] && '/' !in cs[0];
    assert cs[|cs| - 1] != [] && '/' !in cs[|cs| - 1];
    InterleaveHead(cs, "/");
    InterleaveLast(cs, "/");
  }

  /** The last slash of `y + "/" + f` is the one before `f` when `f` holds none. */
  lemma {:induction false} LastSlashBefore(y: string, f: string)
    requires '/' !in f
    ensures LastSlash(y + "/" + f) == Some(|y|)
    decreases |f|
  {
    var x := y + "/" + f;
    if f != [] {
      var g := f[..|f| - 1];
      assert x[|x| - 1] == f[|f| - 1] != '/';
      assert x[..|x| - 1] == y + "/" + g;
      assert '/' !in g by {
        assert forall k :: 0 <= k < |g| ==> g[k] == f[k];
      }
      LastSlashBefore(y, g);
    }
  }

  // ---------------------------------------------------------------------------
  // File.expand_path

  /** The pieces of `p` between slashes, empty pieces included (`p.split("/", -1)`). */
  function Segments(p: string): (r: seq<string>)
    ensures |r| >= 1
    ensures forall k :: 0 <= k < |r| ==> '/' !in r[k]
  {
    if p == [] then [[]]
    else
      var rest := Segments(p[1..]);
      if p[0] == '/' then [[]] + rest else [[p[0]] + rest[0]] + rest[1..]
  }

  /** One step of resolving a path: empty pieces and "." stay, ".." climbs (never above the root). */
  function Step(stack: seq<string>, c: string): seq<string> {
    if c == "" || c == "." then stack
    else if c == ".." then (if stack == [] then [] else stack[..|stack| - 1])
    else stack + [c]
  }

  function ResolveFrom(stack: seq<string>, cs: seq<string>): seq<string>
    decreases |cs|
  {
    if cs == [] then stack else ResolveFrom(Step(stack, cs[0]), cs[1..])
  }

  /** The components of a normal absolute path: none empty, ".", ".." or holding a slash. */
  predicate Clean(cs: seq<string>) {
    forall k :: 0 <= k < |cs| ==> cs[k] != "" && cs[k] != "." && cs[k] != ".." && '/' !in cs[k]
  }

  /** `File.expand_path` of a path that is already absolute: "/" followed by its resolved components. */
  function Normalize(p: string): (r: string)
    ensures StartsWith(r, "/")
  {
    "/" + Interleave(ResolveFrom([], Segments(p)), "/")
  }

  /** `File.expand_path(p)` with `cwd` as the current directory; a relative `p` is taken from there. */
  function ExpandPath(p: string, cwd: string): (r: string)
    ensures StartsWith(r, "/") && IsNormal(r)
  {
    var q := if StartsWith(p, "/") then p else Join(cwd, p);
    NormalizeIsNormal(q);
    Normalize(q)
  }

  /** `expand_path` leaves a path that is already absolute and normal as it is. */
  lemma ExpandPathOfNormal(p: string, cwd: string)
    requires StartsWith(p, "/") && IsNormal(p)
    ensures ExpandPath(p, cwd) == p
  {
    NormalizeOfNormal(p);
  }

  /** A path already in the form `expand_path` produces. */
  ghost predicate IsNormal(p: string) {
    exists cs :: Clean(cs) && p == "/" + Interleave(cs, "/")
  }

  lemma {:induction false} ResolveFromClean(stack: seq<string>, cs: seq<string>)
    requires Clean(stack)
    requires forall k :: 0 <= k < |cs| ==> '/' !in cs[k]
    ensures Clean(ResolveFrom(stack, cs))
    decreases |cs|
  {
    if cs != [] {
      ResolveFromClean(Step(stack, cs[0]), cs[1..]);
    }
  }

  lemma {:induction false} ResolveFromOfClean(stack: seq<string>, cs: seq<string>)
    requires Clean(cs)
    ensures ResolveFrom(stack, cs) == stack + cs
    decreases |cs|
  {
    if cs != [] {
      ResolveFromOfClean(stack + [cs[0]], cs[1..]);
      assert stack + [cs[0]] + cs[1..] == stack + cs;
    }
  }

  /** Resolving two runs of components is resolving the first, then the second from where it ended. */
  lemma {:induction false} ResolveFromAppend(stack: seq<string>, xs: seq<string>, ys: seq<string>)
    ensures ResolveFrom(stack, xs + ys) == ResolveFrom(ResolveFrom(stack, xs), ys)
    decreases |xs|
  {
    if xs == [] {
      assert xs + ys == ys;
    } else {
      assert (xs + ys)[0] == xs[0] && (xs + ys)[1..] == xs[1..] + ys;
      ResolveFromAppend(Step(stack, xs[0]), xs[1..], ys);
    }
  }

  lemma {:induction false} SegmentsOfPiece(a: string)
    requires '/' !in a
    ensures Segments(a) == [a]
    decreases |a|
  {
    if a != [] {
      assert a[0] in a;
      assert forall c :: c in a[1..] ==> c in a;
      SegmentsOfPiece(a[1..]);
      assert [a[0]] + a[1..] == a;
    }
  }

  lemma {:induction false} SegmentsSplit(a: string, b: string)
    requires '/' !in a
    ensures Segments(a + "/" + b) == [a] + Segments(b)
    decreases |a|
  {
    if a == [] {
      assert (a + "/" + b)[1..] == b;
    } else {
      assert a[0] in a;
      assert forall c :: c in a[1..] ==> c in a;
      assert (a + "/" + b)[1..] == a[1..] + "/" + b;
      SegmentsSplit(a[1..], b);
      assert [a[0]] + a[1..] == a;
    }
  }

  /** Splitting undoes joining, for pieces without slashes. */
  lemma {:induction false} SegmentsOfInterleave(cs: seq<string>)
    requires cs != []
    requires forall k :: 0 <= k < |cs| ==> '/' !in cs[k]
    ensures Segments(Interleave(cs, "/")) == cs
    decreases |cs|
  {
    if |cs| == 1 {
      SegmentsOfPiece(cs[0]);
    } else {
      SegmentsSplit(cs[0], Interleave(cs[1..], "/"));
      SegmentsOfInterleave(cs[1..]);
    }
  }

  /** What `Normalize` produces is normal. */
  lemma NormalizeIsNormal(p: string)
    ensures IsNormal(Normalize(p))
  {
    ResolveFromClean([], Segments(p));
  }

  /** A normal path is its own normal form: `expand_path` leaves it alone. */
  lemma {:induction false} NormalizeOfNormal(p: string)
    requires IsNormal(p)
    ensures Normalize(p) == p
  {
    var cs :| Clean(cs) && p == "/" + Interleave(cs, "/");
    var x := Interleave(cs, "/");
    assert p[1..] == x;
    assert p[0] == '/';
    assert Segments(p) == [[]] + Segments(x);
    if cs == [] {
      assert x == [] && Segments(x) == [[]];
      assert ResolveFrom([], [[]]) == ResolveFrom([], []);
      assert ResolveFrom([], Segments(p)) == ResolveFrom(Step([], []), [[]]);
    } else {
      SegmentsOfInterleave(cs);
      ResolveFromOfClean([], cs);
      assert [] + cs == cs;
      assert ResolveFrom([], Segments(p)) == ResolveFrom(Step([], []), cs) == cs;
    }
  }

  /** Normalizing twice is normalizing once. */
  lemma NormalizeIdempotent(p: string)
    ensures Normalize(Normalize(p)) == Normalize(p)
  {
    NormalizeIsNormal(p);
    NormalizeOfNormal(Normalize(p));
  }
}

=== FILE: ruby_text.dfy ===
/**
  The few Ruby `String` operations the release logic relies on:
  `start_with?`, `to_i` and `gsub` with a literal pattern, plus `Integer#to_s`.
 */
module RubyText {

  /** `s.start_with?(p)` */
  predicate StartsWith(s: string, p: string) {
    |p| <= |s| && s[..|p|] == p
  }

  // ---------------------------------------------------------------------------
  // Integer#to_s and String#to_i

  predicate IsDigit(c: char) {
    '0' <= c <= '9'
  }

  /** The characters Ruby skips before the number in `String#to_i`. */
  predicate IsSpace(c: char) {
    c == ' ' || c == '\t' || c == '\n' || c == '\U{B}' || c == '\U{C}' || c == '\r'
  }

  function DigitChar(d: nat): (c: char)
    requires d < 10
    ensures IsDigit(c) && (c as int) - ('0' as int) == d
  {
    (('0' as int) + d) as char
  }

  /** `n.to_s` for a non-negative integer. */
  function Decimal(n: nat): (s: string)
    ensures s != [] && forall i :: 0 <= i < |s| ==> IsDigit(s[i])
  {
    if n < 10 then [DigitChar(n)] else Decimal(n / 10) + [DigitChar(n % 10)]
  }

  /** `i.to_s` for any integer. */
  function IntToS(i: int): string {
    if i < 0 then "-" + Decimal(-i) else Decimal(i)
  }

  /** The value of a string of decimal digits, most significant first. */
  function DigitsValue(ds: string): nat
    requires forall i :: 0 <= i < |ds| ==> IsDigit(ds[i])
  {
    if ds == [] then 0
    else
      assert IsDigit(ds[|ds| - 1]);
      DigitsValue(ds[..|ds| - 1]) * 10 + ((ds[|ds| - 1] as int) - ('0' as int))
  }

  /**
    The digits `String#to_i` reads at the head of `s`: a run of decimal digits
    in which one underscore may stand between two digits. The underscores are dropped.
   */
  function DigitRun(s: string): (ds: string)
    ensures |ds| <= |s|
    ensures forall i :: 0 <= i < |ds| ==> IsDigit(ds[i])
    ensures ds != [] <==> (s != [] && IsDigit(s[0]))
  {
    if s == [] || !IsDigit(s[0]) then []
    else if |s| >= 3 && s[1] == '_' && IsDigit(s[2]) then [s[0]] + DigitRun(s[2..])
    else [s[0]] + DigitRun(s[1..])
  }

  function SkipSpace(s: string): (t: string)
    ensures t == [] || !IsSpace(t[0])
    ensures |t| <= |s| && t == s[|s| - |t|..]
  {
    if s != [] && IsSpace(s[0]) then SkipSpace(s[1..]) else s
  }

  /** The text after the decimal prefix `0d` (or `0D`), which base 10 allows before the digits. */
  function SkipDecimalPrefix(s: string): (t: string)
    ensures t == s || (|s| >= 2 && s[0] == '0' && t == s[2..])
  {
    if |s| >= 2 && s[0] == '0' && (s[1] == 'd' || s[1] == 'D') then s[2..] else s
  }

  /** The value of the unsigned part of a number: an optional `0d`, then the digit run. */
  function Magnitude(s: string): nat {
    DigitsValue(DigitRun(SkipDecimalPrefix(s)))
  }

  /**
    `s.to_i`: leading white space, an optional sign, an optional `0d`, then the
    digit run; anything after it is ignored and a string with no leading
    number gives 0.
   */
  function ToI(s: string): (r: int)
    ensures r < 0 ==> SkipSpace(s) != [] && SkipSpace(s)[0] == '-'
  {
    var t := SkipSpace(s);
    if t != [] && t[0] == '-' then -(Magnitude(t[1..]) as int)
    else if t != [] && t[0] == '+' then Magnitude(t[1..])
    else Magnitude(t)
  }

  lemma {:induction false} DigitRunOfDigits(ds: string, rest: string)
    requires forall i :: 0 <= i < |ds| ==> IsDigit(ds[i])
    requires rest == [] || (!IsDigit(rest[0]) && rest[0] != '_')
    ensures DigitRun(ds + rest) == ds
    decreases |ds|
  {
    if ds != [] {
      assert (ds + rest)[1..] == ds[1..] + rest;
      DigitRunOfDigits(ds[1..], rest);
    }
  }

  lemma {:induction false} DecimalValue(n: nat)
    ensures DigitsValue(Decimal(n)) == n
  {
    if n >= 10 {
      var s := Decimal(n);
      assert s[..|s| - 1] == Decimal(n / 10);
      DecimalValue(n / 10);
    }
  }

  /** The unsigned part of a number reads back the digits `to_s` wrote. */
  lemma MagnitudeOfDecimal(n: nat, rest: string)
    requires rest == [] || (!IsDigit(rest[0]) && rest[0] != '_')
    requires n == 0 && rest != [] ==> rest[0] != 'd' && rest[0] != 'D'
    ensures Magnitude(Decimal(n) + rest) == n
  {
    var d := Decimal(n);
    var s := d + rest;
    if |s| >= 2 && s[0] == '0' {
      if n < 10 {
        assert d == [DigitChar(n)];
        assert s[1] == rest[0];
      } else {
        assert s[1] == d[1] && IsDigit(d[1]);
      }
    }
    assert SkipDecimalPrefix(s) == s;
    assert DigitRun(s) == d by {
      DigitRunOfDigits(d, rest);
    }
    DecimalValue(n);
  }

  /**
    `to_i` reads back what `to_s` wrote, and ignores a tail that does not
    continue the number (so "1.5".to_i is 1 and "10".to_i is 10). A 0
    followed by `d` is the decimal prefix instead, hence the second requires.
   */
  lemma ToIOfDecimal(n: nat, rest: string)
    requires rest == [] || (!IsDigit(rest[0]) && rest[0] != '_')
    requires n == 0 && rest != [] ==> rest[0] != 'd' && rest[0] != 'D'
    ensures ToI(Decimal(n) + rest) == n
  {
    var d := Decimal(n);
    var s := d + rest;
    assert IsDigit(s[0]) by {
      assert s[0] == d[0];
    }
    assert SkipSpace(s) == s;
    MagnitudeOfDecimal(n, rest);
  }

  /** `to_i` also reads a number written with the decimal prefix: "0d5".to_i is 5. */
  lemma ToIOfPrefixed(n: nat, rest: string)
    requires rest == [] || (!IsDigit(rest[0]) && rest[0] != '_')
    ensures ToI("0d" + Decimal(n) + rest) == n
  {
    var d := Decimal(n);
    var u := d + rest;
    var s := "0d" + u;
    assert "0d" + d + rest == s;
    assert s[0] == '0' && s[1] == 'd' && s[2..] == u;
    assert SkipSpace(s) == s;
    assert ToI(s) == Magnitude(s);
    assert SkipDecimalPrefix(s) == u;
    assert DigitRun(u) == d by {
      DigitRunOfDigits(d, rest);
    }
    DecimalValue(n);
  }

  lemma ToIRoundTrip(i: int)
    ensures ToI(IntToS(i)) == i
  {
    if i < 0 {
      var s := IntToS(i);
      var d := Decimal(-i);
      assert s == "-" + d;
      assert SkipSpace(s) == s by {
        assert s[0] == '-' && !IsSpace(s[0]);
      }
      assert ToI(s) == -(Magnitude(s[1..]) as int);
      assert s[1..] == d + [];
      MagnitudeOfDecimal(-i, []);
    } else {
      ToIOfDecimal(i, []);
      assert Decimal(i) + [] == Decimal(i);
    }
  }

  // ---------------------------------------------------------------------------
  // String#gsub with a literal pattern

  /** `s.gsub(pat, rep)`: every occurrence of `pat`, scanned left to right without overlap, becomes `rep`. */
  function ReplaceAll(s: string, pat: string, rep: string): (r: string)
    requires pat != []
    ensures rep == pat ==> r == s
    decreases |s|
  {
    if |s| < |pat| then s
    else if s[..|pat|] == pat then
      assert s == s[..|pat|] + s[|pat|..];
      rep + ReplaceAll(s[|pat|..], pat, rep)
    else
      assert s == [s[0]] + s[1..];
      [s[0]] + ReplaceAll(s[1..], pat, rep)
  }

  /** `parts.join(sep)` */
  function Interleave(parts: seq<string>, sep: string): string {
    if parts == [] then []
    else if |parts| == 1 then parts[0]
    else parts[0] + sep + Interleave(parts[1..], sep)
  }

  /** Joining two non-empty lists is joining each and putting one separator between. */
  lemma {:induction false} InterleaveAppend(xs: seq<string>, ys: seq<string>, sep: string)
    requires xs != [] && ys != []
    ensures Interleave(xs + ys, sep) == Interleave(xs, sep) + sep + Interleave(ys, sep)
    decreases |xs|
  {
    assert (xs + ys)[0] == xs[0];
    if |xs| == 1 {
      assert (xs + ys)[1..] == ys;
    } else {
      assert (xs + ys)[1..] == xs[1..] + ys;
      InterleaveAppend(xs[1..], ys, sep);
    }
  }

  /** A text that never shows the first character of `pat` is left as it is. */
  lemma {:induction false} ReplaceAllUntouched(s: string, pat: string, rep: string)
    requires pat != []
    requires forall i :: 0 <= i < |s| ==> s[i] != pat[0]
    ensures ReplaceAll(s, pat, rep) == s
    decreases |s|
  {
    if |s| >= |pat| {
      assert s[..|pat|][0] != pat[0];
      ReplaceAllUntouched(s[1..], pat, rep);
    }
  }

  /** `pat` starts at no index of `s`. */
  predicate Absent(s: string, pat: string) {
    forall i :: 0 <= i <= |s| ==> !StartsWith(s[i..], pat)
  }

  /** A text in which `pat` never occurs is left as it is. */
  lemma {:induction false} ReplaceAllNoMatch(s: string, pat: string, rep: string)
    requires pat != [] && Absent(s, pat)
    ensures ReplaceAll(s, pat, rep) == s
    decreases |s|
  {
    if |s| >= |pat| {
      assert s[0..] == s;
      var t := s[1..];
      forall i | 0 <= i <= |t|
        ensures !StartsWith(t[i..], pat)
      {
        assert t[i..] == s[i + 1..];
      }
      ReplaceAllNoMatch(t, pat, rep);
    }
  }

  /** An occurrence of `pat` after a stretch that cannot start one is replaced, and the scan continues after it. */
  lemma {:induction false} ReplaceAllSplice(a: string, pat: string, rep: string, b: string)
    requires pat != []
    requires forall i :: 0 <= i < |a| ==> a[i] != pat[0]
    ensures ReplaceAll(a + pat + b, pat, rep) == a + rep + ReplaceAll(b, pat, rep)
    decreases |a|
  {
    var tail := ReplaceAll(b, pat, rep);
    if a == [] {
      assert a + pat + b == pat + b;
      ReplaceAllAtMatch(pat, pat, rep, b);
    } else {
      var s := a + pat + b;
      ConsSplit(a, pat, b);
      ReplaceAllSkip(s, pat, rep);
      ReplaceAllSplice(a[1..], pat, rep, b);
      ConsSplit(a, rep, tail);
    }
  }

  /** Taking the head off a non-empty first piece of a three-piece text. */
  lemma ConsSplit(a: string, x: string, y: string)
    requires a != []
    ensures (a + x + y)[0] == a[0] && |a + x + y| >= |x|
    ensures (a + x + y)[1..] == a[1..] + x + y
    ensures [a[0]] + (a[1..] + x + y) == a + x + y
  {
    assert a == [a[0]] + a[1..];
  }

  /** A text that starts with `pat` has it replaced, and the scan goes on after it. */
  lemma ReplaceAllAtMatch(p: string, pat: string, rep: string, b: string)
    requires pat != [] && p == pat
    ensures ReplaceAll(p + b, pat, rep) == rep + ReplaceAll(b, pat, rep)
  {
    var s := p + b;
    assert s[..|pat|] == pat && s[|pat|..] == b;
  }

  /** A text whose first character cannot start `pat` keeps that character, and the scan goes on after it. */
  lemma ReplaceAllSkip(s: string, pat: string, rep: string)
    requires pat != [] && |s| >= |pat| && s[0] != pat[0]
    ensures ReplaceAll(s, pat, rep) == [s[0]] + ReplaceAll(s[1..], pat, rep)
  {
    assert s[..|pat|][0] == s[0];
  }

  /**
    A template made of pieces that never show the first character of `pat`,
    joined by `pat`, becomes the same pieces joined by `rep`.
   */
  lemma {:induction false} ReplaceAllInterleave(parts: seq<string>, pat: string, rep: string)
    requires pat != []
    requires forall k, i :: 0 <= k < |parts| && 0 <= i < |parts[k]| ==> parts[k][i] != pat[0]
    ensures ReplaceAll(Interleave(parts, pat), pat, rep) == Interleave(parts, rep)
    decreases |parts|
  {
    if |parts| == 1 {
      ReplaceAllUntouched(parts[0], pat, rep);
    } else if |parts| > 1 {
      ReplaceAllSplice(parts[0], pat, rep, Interleave(parts[1..], pat));
      ReplaceAllInterleave(parts[1..], pat, rep);
    }
  }
}

=== FILE: submodule_detection.dfy ===
/**
  Which git submodules a release needs: the templates directory of the
  release repository may hold symlinks into submodule checkouts, and every
  symlink whose target lies under a submodule's working directory makes that
  submodule required.
 */
module SubmoduleDetection {
  import opened Wrappers
  import opened RubyText
  import opened RubyPath

  /** A submodule of the release repository: its path in the working tree and the commit it is pinned to. */
  datatype Submodule = Submodule(path: string, headOid: string)

  /** A file met while walking the templates directory; `link` holds what a symlink points to. */
  datatype FsEntry = FsEntry(path: string, link: Option<string>)

  // ---------------------------------------------------------------------------
  // symlink_target

  /**
    Where the symlink `file` pointing to `link` leads: an absolute link as it
    is, a relative one taken from the directory of `file` and expanded
    against `cwd`.
   */
  function SymlinkTarget(file: string, link: string, cwd: string): (r: string)
    ensures StartsWith(r, "/")
    ensures StartsWith(link, "/") ==> r == link
    ensures !StartsWith(link, "/") ==> IsNormal(r)
  {
    if StartsWith(link, "/") then link
    else
      var p := Join(Dirname(file), link);
      NormalizeIsNormal(if StartsWith(p, "/") then p else Join(cwd, p));
      ExpandPath(p, cwd)
  }

  /**
    A relative link made of plain components, on a file whose path is already
    in normal form, leads to the file's directory followed by those components.
   */
  lemma RelativeLinkResolves(file: string, link: string, cwd: string, ds: seq<string>, f: string, ls: seq<string>)
    requires Clean(ds + [f]) && Clean(ls) && ls != []
    requires file == "/" + Interleave(ds + [f], "/")
    requires link == Interleave(ls, "/")
    ensures SymlinkTarget(file, link, cwd) == "/" + Interleave(ds + ls, "/")
  {
    CleanSplit(ds, f);
    var p := "/" + Interleave(ds + ls, "/");
    assert !StartsWith(link, "/") by {
      InterleaveEnds(ls);
    }
    assert SymlinkTarget(file, link, cwd) == ExpandPath(Join(Dirname(file), link), cwd);
    assert Join(Dirname(file), link) == p by {
      DirnameOfComponents(ds, f);
      JoinRelative(ds, ls);
    }
    assert IsNormal(p) && StartsWith(p, "/") by {
      assert Clean(ds + ls) by {
        assert forall k :: 0 <= k < |ds + ls| ==> (ds + ls)[k] == if k < |ds| then ds[k] else ls[k - |ds|];
      }
    }
    ExpandPathOfNormal(p, cwd);
  }

  lemma JoinRelative(ds: seq<string>, ls: seq<string>)
    requires Clean(ds) && Clean(ls) && ls != []
    ensures Join("/" + Interleave(ds, "/"), Interleave(ls, "/")) == "/" + Interleave(ds + ls, "/")
  {
    var d := "/" + Interleave(ds, "/");
    var link := Interleave(ls, "/");
    assert link[0] != '/' by {
      InterleaveEnds(ls);
    }
    if ds == [] {
      assert Join(d, link) == "/" + Interleave(ds + ls, "/") by {
        assert d == "/" && ds + ls == ls;
      }
    } else {
      assert Join(d, link) == d + "/" + link by {
        InterleaveEnds(ds);
      }
      InterleaveAppend(ds, ls, "/");
    }
  }

  /**
    A link that climbs one level and then names plain components, as a
    template pointing into a sibling source tree does, leads to the parent
    of the symlink's directory followed by those components (the symlink's
    path again in normal form).
   */
  lemma ParentLinkResolves(file: string, link: string, cwd: string, ds: seq<string>, f: string, ls: seq<string>)
    requires Clean(ds + [f]) && ds != [] && Clean(ls) && ls != []
    requires file == "/" + Interleave(ds + [f], "/")
    requires link == "../" + Interleave(ls, "/")
    ensures SymlinkTarget(file, link, cwd) == "/" + Interleave(ds[..|ds| - 1] + ls, "/")
  {
    DirnameOfComponents(ds, f);
    CleanSplit(ds, f);
    var p := Join(Dirname(file), link);
    JoinParent(Dirname(file), link, ds, ls);
    assert StartsWith(p, "/");
    NormalizeParent(ds, ls);
  }

  lemma JoinParent(d: string, link: string, ds: seq<string>, ls: seq<string>)
    requires Clean(ds) && ds != [] && Clean(ls) && ls != []
    requires d == "/" + Interleave(ds, "/")
    requires link == "../" + Interleave(ls, "/")
    ensures Join(d, link) == "/" + Interleave(ds + ([".."] + ls), "/")
  {
    InterleaveLast(ds, "/");
    assert d[|d| - 1] == ds[|ds| - 1][|ds[|ds| - 1]| - 1] && d[|d| - 1] != '/';
    assert link[0] == '.';
    assert Join(d, link) == d + "/" + link;
    InterleaveAppend([".."], ls, "/");
    InterleaveAppend(ds, [".."] + ls, "/");
  }

  lemma NormalizeParent(ds: seq<string>, ls: seq<string>)
    requires Clean(ds) && ds != [] && Clean(ls)
    ensures Normalize("/" + Interleave(ds + ([".."] + ls), "/")) == "/" + Interleave(ds[..|ds| - 1] + ls, "/")
  {
    var all := ds + ([".."] + ls);
    var p := "/" + Interleave(all, "/");
    assert Segments(p) == [""] + all by {
      NoSlashAround(ds, ls);
      SegmentsOfRooted(all);
    }
    assert ResolveFrom([], Segments(p)) == ds[..|ds| - 1] + ls by {
      ResolveParent(ds, ls);
    }
  }

  /** No component of `ds`, "..", `ls` holds a slash. */
  lemma NoSlashAround(ds: seq<string>, ls: seq<string>)
    requires Clean(ds) && Clean(ls)
    ensures forall k :: 0 <= k < |ds + ([".."] + ls)| ==> '/' !in (ds + ([".."] + ls))[k]
  {
    var tail := [".."] + ls;
    var all := ds + tail;
    forall k | 0 <= k < |all|
      ensures '/' !in all[k]
    {
      if k < |ds| {
        assert all[k] == ds[k];
      } else {
        var j := k - |ds|;
        assert all[k] == tail[j];
        if j > 0 {
          assert tail[j] == ls[j - 1];
        }
      }
    }
  }

  lemma SegmentsOfRooted(cs: seq<string>)
    requires cs != []
    requires forall k :: 0 <= k < |cs| ==> '/' !in cs[k]
    ensures Segments("/" + Interleave(cs, "/")) == [""] + cs
  {
    var x := Interleave(cs, "/");
    SegmentsOfInterleave(cs);
    SegmentsSplit("", x);
    assert "" + "/" + x == "/" + x;
  }

  lemma ResolveParent(ds: seq<string>, ls: seq<string>)
    requires Clean(ds) && ds != [] && Clean(ls)
    ensures ResolveFrom([], [""] + (ds + ([".."] + ls))) == ds[..|ds| - 1] + ls
  {
    var tail := [".."] + ls;
    var all := ds + tail;
    var segs := [""] + all;
    assert segs[0] == "" && segs[1..] == all;
    assert ResolveFrom([], segs) == ResolveFrom([], all);
    ResolveFromAppend([], ds, tail);
    ResolveFromOfClean([], ds);
    assert [] + ds == ds;
    assert tail[0] == ".." && tail[1..] == ls;
    assert ResolveFrom(ds, tail) == ResolveFrom(ds[..|ds| - 1], ls);
    ResolveFromOfClean(ds[..|ds| - 1], ls);
  }

  // ---------------------------------------------------------------------------
  // submodule_for

  /** `file` lies under the working directory of `sub`: a plain text prefix test, as `start_with?` does. */
  predicate Covers(workdir: string, sub: Submodule, file: string) {
    StartsWith(file, Join(workdir, sub.path))
  }

  /** The index of the first element of `xs` that satisfies `p`. */
  function FirstIndex<T>(p: T -> bool, xs: seq<T>): (r: Option<nat>)
    ensures r.Some? ==> r.value < |xs| && p(xs[r.value])
    ensures r.Some? ==> forall j :: 0 <= j < r.value ==> !p(xs[j])
    ensures r.None? ==> forall j :: 0 <= j < |xs| ==> !p(xs[j])
  {
    if xs == [] then None
    else if p(xs[0]) then Some(0)
    else match FirstIndex(p, xs[1..])
      case None => None
      case Some(i) => Some(i + 1)
  }

  /** An index whose element satisfies `p` after none before it did is the one `FirstIndex` finds. */
  lemma FirstIndexIs<T>(p: T -> bool, xs: seq<T>, i: nat)
    requires i < |xs| && p(xs[i])
    requires forall j :: 0 <= j < i ==> !p(xs[j])
    ensures FirstIndex(p, xs) == Some(i)
  {
  }

  /** The test `submodule_for` applies to each submodule. */
  function CoversFile(workdir: string, file: string): Submodule -> bool {
    s => Covers(workdir, s, file)
  }

  /** The index of the first submodule that covers `file`. */
  function FirstCovering(workdir: string, subs: seq<Submodule>, file: string): Option<nat> {
    FirstIndex(CoversFile(workdir, file), subs)
  }

  /** The submodule `submodule_for` answers with, or None where Ruby answers `false`. */
  function CoveringSubmodule(workdir: string, subs: seq<Submodule>, file: string): Option<Submodule> {
    match FirstCovering(workdir, subs, file)
    case None => None
    case Some(i) => Some(subs[i])
  }

  /** The submodules in their listed order; the first whose working directory is a prefix of `file` wins. */
  method SubmoduleFor(workdir: string, subs: seq<Submodule>, file: string) returns (r: Option<Submodule>)
    ensures r == CoveringSubmodule(workdir, subs, file)
  {
    ghost var p := CoversFile(workdir, file);
    var i := 0;
    while i < |subs|
      invariant 0 <= i <= |subs|
      invariant forall j :: 0 <= j < i ==> !p(subs[j])
    {
      if StartsWith(file, Join(workdir, subs[i].path)) {
        assert p(subs[i]);
        FirstIndexIs(p, subs, i);
        return Some(subs[i]);
      }
      i := i + 1;
    }
    assert FirstIndex(p, subs).None?;
    return None;
  }

  /** A covering submodule is one of the listed submodules and covers the file; no answer means none covers it. */
  lemma CoveringSubmoduleSound(workdir: string, subs: seq<Submodule>, file: string)
    ensures CoveringSubmodule(workdir, subs, file).Some? <==> exists j :: 0 <= j < |subs| && Covers(workdir, subs[j], file)
    ensures CoveringSubmodule(workdir, subs, file).Some? ==>
      CoveringSubmodule(workdir, subs, file).value in subs && Covers(workdir, CoveringSubmodule(workdir, subs, file).value, file)
  {
  }

  // ---------------------------------------------------------------------------
  // symlink_templates

  /** The target of one entry of the walk, when it is a symlink. */
  function TargetOf(e: FsEntry, cwd: string): (r: Option<string>)
    ensures r.Some? <==> e.link.Some?
  {
    if e.link.Some? then Some(SymlinkTarget(e.path, e.link.value, cwd)) else None
  }

  /** The targets of the symlinks among `entries`, in walk order. */
  function Targets(entries: seq<FsEntry>, cwd: string): (ts: seq<string>)
    ensures |ts| <= |entries|
  {
    Collect(e => TargetOf(e, cwd), entries)
  }

  /** Targets of a walk split in two are the targets of each part, in order. */
  lemma TargetsAppend(xs: seq<FsEntry>, ys: seq<FsEntry>, cwd: string)
    ensures Targets(xs + ys, cwd) == Targets(xs, cwd) + Targets(ys, cwd)
  {
    CollectAppend(e => TargetOf(e, cwd), xs, ys);
  }

  /**
    A target comes from a symlink of the walk, and every symlink of the walk
    gives its target; every target is an absolute path.
   */
  lemma TargetsMembership(entries: seq<FsEntry>, cwd: string, t: string)
    ensures t in Targets(entries, cwd) <==>
      exists k :: 0 <= k < |entries| && entries[k].link.Some? && t == SymlinkTarget(entries[k].path, entries[k].link.value, cwd)
    ensures t in Targets(entries, cwd) ==> StartsWith(t, "/")
  {
    CollectMembership(e => TargetOf(e, cwd), entries, t);
    if t in Targets(entries, cwd) {
      var k :| 0 <= k < |entries| && TargetOf(entries[k], cwd) == Some(t);
      assert t == SymlinkTarget(entries[k].path, entries[k].link.value, cwd);
    }
  }

  /**
    `symlink_templates`: nothing when the templates directory does not exist;
    otherwise the target of every symlink the walk meets, in walk order.
   */
  method SymlinkTemplates(templatesExist: bool, entries: seq<FsEntry>, cwd: string) returns (ts: seq<string>)
    ensures ts == if templatesExist then Targets(entries, cwd) else []
  {
    ts := [];
    if templatesExist {
      var i := 0;
      while i < |entries|
        invariant 0 <= i <= |entries|
        invariant ts == Targets(entries[..i], cwd)
      {
        var e := entries[i];
        assert Targets(entries[..i + 1], cwd) == ts + (if e.link.Some? then [SymlinkTarget(e.path, e.link.value, cwd)] else []) by {
          CollectSnoc(e => TargetOf(e, cwd), entries[..i], e);
          assert entries[..i] + [e] == entries[..i + 1];
        }
        if e.link.Some? {
          ts := ts + [SymlinkTarget(e.path, e.link.value, cwd)];
        }
        i := i + 1;
      }
      assert entries[..i] == entries;
    }
  }

  // ---------------------------------------------------------------------------
  // required_submodules

  /** The values `f` yields for the elements of `xs`, in order, skipping those it yields none for. */
  function Collect<T, U>(f: T -> Option<U>, xs: seq<T>): (ys: seq<U>)
    ensures |ys| <= |xs|
  {
    if xs == [] then []
    else
      var c := f(xs[|xs| - 1]);
      Collect(f, xs[..|xs| - 1]) + (if c.Some? then [c.value] else [])
  }

  lemma {:induction false} CollectAppend<T, U>(f: T -> Option<U>, xs: seq<T>, ys: seq<T>)
    ensures Collect(f, xs + ys) == Collect(f, xs) + Collect(f, ys)
    decreases |ys|
  {
    if ys == [] {
      assert xs + ys == xs;
    } else {
      var n := |ys|;
      assert (xs + ys)[..|xs + ys| - 1] == xs + ys[..n - 1];
      assert (xs + ys)[|xs + ys| - 1] == ys[n - 1];
      CollectAppend(f, xs, ys[..n - 1]);
    }
  }

  lemma CollectSnoc<T, U>(f: T -> Option<U>, xs: seq<T>, x: T)
    ensures Collect(f, xs + [x]) == Collect(f, xs) + (if f(x).Some? then [f(x).value] else [])
  {
    assert (xs + [x])[..|xs|] == xs;
  }

  lemma {:induction false} CollectMembership<T, U>(f: T -> Option<U>, xs: seq<T>, y: U)
    ensures y in Collect(f, xs) <==> exists k :: 0 <= k < |xs| && f(xs[k]) == Some(y)
    decreases |xs|
  {
    if xs != [] {
      var n := |xs| - 1;
      CollectMembership(f, xs[..n], y);
      assert forall k :: 0 <= k < n ==> xs[..n][k] == xs[k];
    }
  }

  /** For each target in order, the submodule covering it, when one does; repeats are kept. */
  function Required(workdir: string, subs: seq<Submodule>, targets: seq<string>): (req: seq<Submodule>)
    ensures |req| <= |targets|
  {
    Collect(t => CoveringSubmodule(workdir, subs, t), targets)
  }

  lemma RequiredSnoc(workdir: string, subs: seq<Submodule>, ts: seq<string>, t: string, c: Option<Submodule>)
    requires c == CoveringSubmodule(workdir, subs, t)
    ensures Required(workdir, subs, ts + [t]) == Required(workdir, subs, ts) + (if c.Some? then [c.value] else [])
  {
    CollectSnoc(t => CoveringSubmodule(workdir, subs, t), ts, t);
  }

  method RequiredSubmodules(workdir: string, subs: seq<Submodule>, targets: seq<string>) returns (req: seq<Submodule>)
    ensures req == Required(workdir, subs, targets)
  {
    req := [];
    var i := 0;
    while i < |targets|
      invariant 0 <= i <= |targets|
      invariant req == Required(workdir, subs, targets[..i])
    {
      var s := SubmoduleFor(workdir, subs, targets[i]);
      assert Required(workdir, subs, targets[..i + 1]) == req + (if s.Some? then [s.value] else []) by {
        RequiredSnoc(workdir, subs, targets[..i], targets[i], s);
        assert targets[..i] + [targets[i]] == targets[..i + 1];
      }
      if s.Some? {
        req := req + [s.value];
      }
      i := i + 1;
    }
    assert targets[..i] == targets;
  }

  /** The submodules required by two lists of targets are those of the first followed by those of the second. */
  lemma RequiredAppend(workdir: string, subs: seq<Submodule>, xs: seq<string>, ys: seq<string>)
    ensures Required(workdir, subs, xs + ys) == Required(workdir, subs, xs) + Required(workdir, subs, ys)
  {
    CollectAppend(t => CoveringSubmodule(workdir, subs, t), xs, ys);
  }

  /** The target `t` makes `s` required. */
  predicate Needs(workdir: string, subs: seq<Submodule>, t: string, s: Submodule) {
    CoveringSubmodule(workdir, subs, t) == Some(s)
  }

  /**
    A submodule is required exactly when it is the covering submodule of some
    target; so every required submodule is one of the repository's.
   */
  lemma RequiredMembership(workdir: string, subs: seq<Submodule>, targets: seq<string>, s: Submodule)
    ensures s in Required(workdir, subs, targets) <==> exists k :: 0 <= k < |targets| && Needs(workdir, subs, targets[k], s)
    ensures s in Required(workdir, subs, targets) ==> s in subs
  {
    CollectMembership(t => CoveringSubmodule(workdir, subs, t), targets, s);
    if s in Required(workdir, subs, targets) {
      var k :| 0 <= k < |targets| && Needs(workdir, subs, targets[k], s);
      CoveringSubmoduleSound(workdir, subs, targets[k]);
    }
  }

  /** Two templates inside one submodule make it appear twice: the list is not deduplicated. */
  lemma RequiredKeepsRepeats(workdir: string, subs: seq<Submodule>, t1: string, t2: string, s: Submodule)
    requires CoveringSubmodule(workdir, subs, t1) == Some(s)
    requires CoveringSubmodule(workdir, subs, t2) == Some(s)
    ensures Required(workdir, subs, [t1, t2]) == [s, s]
  {
    RequiredAppend(workdir, subs, [t1], [t2]);
    assert [t1] + [t2] == [t1, t2];
    assert [t1][..0] == [] && [t2][..0] == [];
  }
}

=== FILE: version_pattern.dfy ===
/**
  The version extraction `entry_name[/#{name}-(.+)\.yml/, 1]` for the one
  pattern the release logic uses. The pattern is not anchored: Ruby takes the
  leftmost position where `<name>-` is followed by a non-empty capture and
  `.yml`, and at that position the longest capture (the `.+` is greedy and,
  as in Ruby, does not cross a line break).
 */
module VersionPattern {
  import opened Wrappers

  /**
    The pattern matches `s` starting at `i` with the capture ending at `k`:
    `s[i..]` starts with `name + "-"`, the capture `s[i + |name| + 1..k]` is
    non-empty and free of line breaks, and `.yml` follows it.
   */
  predicate MatchAt(name: string, s: string, i: nat, k: nat) {
    && i + |name| + 1 < k
    && k + 4 <= |s|
    && s[i..i + |name| + 1] == name + "-"
    && s[k..k + 4] == ".yml"
    && '\n' !in s[i + |name| + 1..k]
  }

  /** `t` occurs in `s` at index `i`. */
  predicate ContainsAt(s: string, t: string, i: nat) {
    i + |t| <= |s| && s[i..i + |t|] == t
  }

  /** The largest capture end `k' <= k` for a match starting at `i`. */
  function LongestBelow(name: string, s: string, i: nat, k: nat): (r: Option<nat>)
    ensures r.Some? ==> r.value <= k && MatchAt(name, s, i, r.value)
    ensures r.Some? ==> forall k': nat :: r.value < k' <= k ==> !MatchAt(name, s, i, k')
    ensures r.None? ==> forall k': nat :: k' <= k ==> !MatchAt(name, s, i, k')
    decreases k
  {
    if MatchAt(name, s, i, k) then Some(k)
    else if k == 0 then None
    else LongestBelow(name, s, i, k - 1)
  }

  /** The leftmost start at or after `i` where the pattern matches, with its greedy capture end. */
  function FirstMatchFrom(name: string, s: string, i: nat): (r: Option<(nat, nat)>)
    ensures r.Some? ==> i <= r.value.0 && MatchAt(name, s, r.value.0, r.value.1)
    ensures r.Some? ==> forall k :: r.value.1 < k ==> !MatchAt(name, s, r.value.0, k)
    ensures r.Some? ==> forall i', k :: i <= i' < r.value.0 ==> !MatchAt(name, s, i', k)
    ensures r.None? ==> forall i', k :: i <= i' ==> !MatchAt(name, s, i', k)
    decreases |s| - i
  {
    match LongestBelow(name, s, i, |s|)
    case Some(k) => Some((i, k))
    case None =>
      if i >= |s| then None else FirstMatchFrom(name, s, i + 1)
  }

  /**
    `entry_name[/#{name}-(.+)\.yml/, 1]`: the captured version, or None (Ruby's
    `nil`) when the name does not match.
   */
  function VersionOf(name: string, s: string): (r: Option<string>)
    ensures r.Some? ==> r.value != [] && '\n' !in r.value
  {
    match FirstMatchFrom(name, s, 0)
    case None => None
    case Some(m) => Some(s[m.0 + |name| + 1..m.1])
  }

  /**
    A version is extracted exactly when the pattern matches somewhere, and the
    text `<name>-<version>.yml` then occurs in the file name.
   */
  lemma VersionOfMatches(name: string, s: string)
    ensures VersionOf(name, s).Some? <==> exists i: nat, k: nat :: MatchAt(name, s, i, k)
    ensures VersionOf(name, s).Some? ==>
              exists i: nat :: ContainsAt(s, name + "-" + VersionOf(name, s).value + ".yml", i)
  {
    var m := FirstMatchFrom(name, s, 0);
    if m.Some? {
      var (i, k) := m.value;
      var j := i + |name| + 1;
      var v := s[j..k];
      assert VersionOf(name, s) == Some(v);
      assert ContainsAt(s, name + "-" + v + ".yml", i) by {
        assert MatchAt(name, s, i, k);
        assert s[i..k + 4] == s[i..j] + v + s[k..k + 4];
      }
    }
  }

  /** A file named exactly `<name>-<v>.yml` yields `v`, however `v` itself looks. */
  lemma VersionOfManifestName(name: string, v: string)
    requires v != [] && '\n' !in v
    ensures VersionOf(name, name + "-" + v + ".yml") == Some(v)
  {
    var s := name + "-" + v + ".yml";
    var k := |name| + 1 + |v|;
    assert s[0..|name| + 1] == name + "-";
    assert s[k..k + 4] == ".yml";
    assert s[|name| + 1..k] == v;
    assert MatchAt(name, s, 0, k);
    var m := FirstMatchFrom(name, s, 0);
    assert m.Some? && m.value.0 == 0;
    assert m.value.1 == k;
  }

  /**
    The pattern is not anchored: a file of another release whose name ends
    with this one still yields a version.
   */
  lemma VersionOfUnanchored(name: string, s: string)
    requires name == "bar" && s == "foobar-2.yml"
    ensures VersionOf(name, s) == Some("2")
  {
    assert MatchAt(name, s, 3, 8) by {
      assert s[3..7] == name + "-" && s[8..12] == ".yml" && s[7..8] == "2";
    }
    NoMatchBefore(name, s, 3);
    var m := FirstMatchFrom(name, s, 0);
    assert m.Some? && m.value.0 == 3;
    assert m.value.1 == 8 by {
      assert MatchAt(name, s, 3, m.value.1);
    }
    assert s[7..8] == "2";
  }

  /** In "foobar-2.yml", "bar-" occurs at no index before 3. */
  lemma NoMatchBefore(name: string, s: string, n: nat)
    requires name == "bar" && s == "foobar-2.yml" && n == 3
    ensures forall i': nat, k: nat :: i' < n ==> !MatchAt(name, s, i', k)
  {
    assert name + "-" == "bar-";
    assert s[0..4] == "foob" && s[1..5] == "ooba" && s[2..6] == "obar";
  }
}

=== FILE: wrappers.dfy ===
/** Option and Result values used in place of Ruby's `nil` and raised errors. */
module Wrappers {
  datatype Option<+T> = None | Some(value: T)

  datatype Result<+T, +E> = Ok(value: T) | Err(error: E)
}
